=== FILE: README.md ===
# InVEST urban-health data agent, modelled in Dafny

This project models the decision and bookkeeping logic of the urban-health
data agent. Everything that talks to a service is an oracle: Earth Engine,
WorldPop, Nominatim, the LLM, rasterio and the file system. Each oracle
reports success or failure, or returns a value. The rest is modelled as
written:

- **`DataAgent`** (`data_agent.dfy`) covers `EarthEngineDataAgentComplete`.
  - The four `get_*_raster` chains run download, clip, reproject and rename. They stop at the first failure. Otherwise they run all four stages and return `outputs/<stem>_aligned.tif`, the stem being `landcover`, `treecover`, `ndvi` or `population`.
  - The tree-canopy year is clamped.
  - In the job loop of `process_city_data`, a known name whose final file exists is validated and recorded in `outputs`, `dataset_info` and `validation_results`. Each round has its own side-effect oracles, so a name requested twice may succeed in one round and fail in the other.
  - The manifest gets `outputs` and a `completed`/`failed` status. Writing it to `outputs/<job_id>_manifest.json` may fail, and otherwise `make_json_safe` converts it.
  - Job ids have the form `data_YYYYmmdd_HHMMSS_<uuid prefix>`.
- **`GeoLlm`** (`geollm_agent.dfy`) covers `GeoLLMAgent`.
  - The keyword fallback takes the last three words as the place. It matches keywords case-insensitively as substrings, in the mapping's order, and falls back to all five types.
  - The LLM-or-fallback choice, the clarification rules, the reply text and `process_request` are also modelled.
- **`Validation`** (`validation.dfy`) covers `DataValidator`.
  - `validate_raster` follows the CRS-match rule and the nodata rule, including the falsy-0 quirk. A failure produces the soft-failure record. The record is the function `Record` of the file the oracle opens, with all twelve values stated.
  - `create_manifest` computes a `success` flag that ANDs the records' `crs_match` values, counting a missing flag as false.
- **`Geocoding`** (`geocoding.dfy`) covers `Geocoder`.
  - `get_bounding_box` maps Nominatim's raw `[south, north, west, east]` array to named fields. It also models the paths that return `None`.
  - `bbox_to_geojson` builds a closed `[lon, lat]` ring. The model proves that twice the ring's signed area is 2·width·height. So the ring is counterclockwise, in the sense of section 3.1.6 of RFC 7946, whenever the box's minimum lies below its maximum on both axes. An inverted box gives a clockwise ring.
- **`Spatial`** (`spatial.dfy`) models the one local rule of the raster reprojection, `src.nodata or 255`.
- **`Json`**, **`Text`** and **`Util`** model the Python values these modules handle.
  - `Json` models Python values: dicts, lists, numpy scalars, other objects, IEEE NaN, truthiness and `dict.get`.
  - `Text` models the string operations: `str.split()`, `" ".join`, ASCII `lower`, the substring test `in`, and zero-padded decimals.
  - `Util` holds the `Option` and `Result` types.

The two loops of the source are methods with loop invariants, proved
against the specification functions beside them:
- `MatchKeywords`, the keyword loop of `fallback_parsing`, against `MatchedTypes`.
- `CollectDatasets`, the job loop of `process_city_data`, against `Collected`.

The other operations of the agents are straight-line methods. Each is proved
against a function: `ValidateRaster` against `Validation.Record`, and
`ProcessCityData` against `Collected` and the predicate `ManifestFor`.

The agents keep no mutable state between calls, so there are no classes.

## Model

| member | source | states |
|---|---|---|
| DataAgent.Dispatch | agents/data_agent.py:269-287 | a name selects a dataset exactly when it is one of land_cover, tree_cover, ndvi, population; every other name (basemap included) is skipped |
| DataAgent.TreeCoverYear | agents/data_agent.py:110-119 | the canopy year is always in 2011..2023: the requested year when it is in range, 2021 otherwise |
| DataAgent.DownloadRequest | agents/data_agent.py:66-227 | tree cover always asks for a year the 2023 release holds; only population is fetched over HTTP, the others from Earth Engine |
| DataAgent.RunPipeline | agents/data_agent.py:66-227 | the stages invoked are a prefix of download, clip, reproject, rename; all but the last succeeded; a `None` result means the last one failed; a path is returned exactly when every stage succeeds, and then all four stages were invoked in order and the path is `outputs/<stem>_aligned.tif` (stem `landcover`, `treecover`, `ndvi` or `population`) |
| DataAgent.OutputsMembers | agents/data_agent.py:261-290 | a name is in `outputs` exactly when it is one of the four known datasets and some round that saw it ran its whole pipeline successfully and then found its file; unknown names never appear |
| DataAgent.FetchDataset | agents/data_agent.py:266-295 | one round returns a validation record exactly when the name is recorded, and that record is the validator's record on the final file opened against EPSG:5070 |
| DataAgent.CollectDatasets | agents/data_agent.py:256-313 | after the loop, `outputs`, `dataset_info` and `validation_results` are exactly the maps `Collected` gives for the requested names and the rounds' side effects |
| DataAgent.DatasetEntryShape | agents/data_agent.py:297-310 | a `dataset_info` entry names its source, resolution `"30m"`, crs `"EPSG:5070"`, the box and year; its `validation` part copies the record's `crs_match` (`False` when missing) and its `bounds`, `shape`, `min_value` and `max_value` (`None` when missing) |
| DataAgent.LastRound | agents/data_agent.py:261-295 | names the last round that recorded a name: there is one exactly when some round recorded it, it saw that name and recorded it, and no later round recorded it |
| DataAgent.CollectedKeys | agents/data_agent.py:290-297 | the three maps share their keys, and a name is a key exactly when some round recorded it |
| DataAgent.CollectedPaths | agents/data_agent.py:289-290 | every name in `outputs` is a known dataset mapped to its dataset's final path `outputs/<stem>_aligned.tif` (stem `landcover`, `treecover`, `ndvi` or `population`) |
| DataAgent.CollectedRecords | agents/data_agent.py:294-295 | each stored record is the validator's record on the final file as of the last round that recorded the name, later rounds that failed leaving it in place |
| DataAgent.CollectedInfo | agents/data_agent.py:297-310 | each `dataset_info` entry is built from the record stored under the same name |
| DataAgent.CollectedWellFormed | agents/data_agent.py:294-310 | every stored record and every entry holds only plain values |
| DataAgent.EntryValidationWellFormed | agents/data_agent.py:304-309 | the `validation` part of an entry holds only plain numpy scalars when the record does |
| DataAgent.DatasetEntryWellFormed | agents/data_agent.py:297-310 | an entry built from a record with only plain numpy scalars holds only plain numpy scalars |
| DataAgent.MakeJsonSafe | agents/data_agent.py:229-240 | dict keys and list lengths are kept, and dicts and lists are converted entry by entry and item by item; a numpy scalar becomes its plain value (`.item()`); bool/int/float/str/None stay as they are; any other object becomes its text |
| DataAgent.SafeIsFixpoint | agents/data_agent.py:229-240 | a value with no numpy scalar and no other object is left exactly as it is |
| DataAgent.ResultIsSafe | agents/data_agent.py:229-240 | for values whose numpy scalars hold a bool, int, float or str, the conversion leaves no numpy scalar and no other object anywhere in the value |
| DataAgent.JsonSafeIdempotent | agents/data_agent.py:229-240 | for values whose numpy scalars hold a bool, int, float or str, converting twice gives the same value as converting once |
| DataAgent.JsonSafeAt | agents/data_agent.py:231-232 | a dictionary is converted entry by entry |
| DataAgent.ConvertedRecord | utils/validation.py:26-31 | in the converted record of a readable file, `has_nodata` is the plain boolean: true exactly when nodata is set, not 0, and some pixel equals it; `crs_match` is the CRS verdict |
| DataAgent.ConvertedNodataFlag | agents/data_agent.py:229-240 | converting a record unwraps the `np.bool_` of `has_nodata` into the plain boolean it holds, `False` staying `False` |
| DataAgent.JobId | agents/data_agent.py:35-36 | the id is `data_`, eight date digits, `_`, six time digits, `_`, the first eight characters of the uuid |
| DataAgent.JobIdRoundTrip | agents/data_agent.py:35-36 | the id determines the clock reading and the uuid prefix it was made from |
| DataAgent.FinalManifest | agents/data_agent.py:316-325 | the manifest holds the seven manifest keys plus `outputs` and `status`, `status` being `completed` exactly when `outputs` is non-empty |
| DataAgent.FinalManifestShape | agents/data_agent.py:316-325 | the manifest copies the job id, city, box, `Z`-stamped UTC time, outputs, datasets and every record, and its processing parameters carry `success` as the AND of the records' CRS flags |
| DataAgent.BBoxWellFormed | agents/data_agent.py:252 | the geocoded box stored in the manifest holds plain values only |
| DataAgent.ValidationSectionWellFormed | utils/validation.py:51 | the `validation` entry is well-formed when every record is |
| DataAgent.ProcessingParametersWellFormed | utils/validation.py:52-56 | the processing parameters hold plain values only |
| DataAgent.CreateManifestWellFormed | utils/validation.py:42-57 | the manifest is well-formed when its box, entries and records are |
| DataAgent.ManifestWellFormed | agents/data_agent.py:316-325 | the manifest with `outputs` and `status` added is well-formed |
| DataAgent.BBoxSafe | agents/data_agent.py:252 | the geocoded box is already JSON-safe |
| DataAgent.ReturnedEntries | agents/data_agent.py:324-333 | the conversion keeps `outputs` and `status` unchanged |
| DataAgent.ConvertedScalars | agents/data_agent.py:333 | the conversion keeps the job id, city, box, timestamp and processing parameters unchanged |
| DataAgent.ConvertedHeader | agents/data_agent.py:333 | the converted manifest is JSON-safe, keeps its keys, and its scalar entries, `outputs` and `status` are those of the manifest |
| DataAgent.ConvertedTables | agents/data_agent.py:333 | the converted `datasets` and `validation` keep their names and hold each entry and record converted |
| DataAgent.CollectedFacts | agents/data_agent.py:256-313 | after the loop, `outputs` holds path strings, the three maps share their keys, records and entries are well-formed, and the AND of the CRS flags means every recorded file was accepted |
| DataAgent.SuccessMeansAccepted | utils/validation.py:55 | `success` is true exactly when, for every recorded name, the validator accepted the file of the last round that recorded it |
| DataAgent.ReturnedManifest | agents/data_agent.py:316-333 | the converted manifest says all of `ManifestFor`: JSON-safe, job id, city, box, timestamp, outputs, status, each converted entry and record, and `success` from the records |
| DataAgent.ProcessCityData | agents/data_agent.py:243-341 | fails with `❌ Could not geocode <city>` when geocoding fails, and with the write error when writing `outputs/<job_id>_manifest.json` fails; otherwise returns the converted manifest for `Collected`: job id, city, box, timestamp, `outputs`, `completed` exactly when a name was recorded, each converted entry and record, and `success` exactly when every recorded file was accepted |
| GeoLlm.LastWords | agents/geollm_agent.py:93-94 | `words[-3:]` keeps the last min(3, n) words |
| GeoLlm.LocationWords | agents/geollm_agent.py:92-94 | the fallback place splits back into the last min(3, n) words of the prompt |
| GeoLlm.MatchedTypesSpec | agents/geollm_agent.py:106-108 | after the first n mapping entries, a type is collected exactly when one of its keywords occurs in the lowered prompt, in mapping order without duplicates |
| GeoLlm.FallbackTypesSpec | agents/geollm_agent.py:98-111 | the fallback types are never empty; a type is listed exactly when one of its keywords matches, or when none matches at all; the order is land_cover, tree_cover, ndvi, population, basemap |
| GeoLlm.KeywordFoundInAnyCase | agents/geollm_agent.py:89-107 | a lower-case keyword is found wherever the prompt spells it in any ASCII case |
| GeoLlm.FallbackIgnoresCase | agents/geollm_agent.py:89-111 | lowering the prompt first does not change the types found |
| GeoLlm.FallbackTypesKnown | agents/geollm_agent.py:98-111 | every name the fallback returns is one of the mapping's five names |
| GeoLlm.MatchKeywords | agents/geollm_agent.py:106-108 | the loop collects exactly the names whose keywords match, in mapping order |
| GeoLlm.FallbackParsing | agents/geollm_agent.py:88-113 | the loop returns the last three words as the place and exactly the matched types (all five when none match), never empty, all from the mapping |
| GeoLlm.ParsePromptWithLlm | agents/geollm_agent.py:77-86 | the LLM's extraction when it answers, the keyword fallback when it raises |
| GeoLlm.CheckClarificationNeeded | agents/geollm_agent.py:153-163 | the location message is present exactly when the city is empty or under two words, the scope question exactly when four types are listed; nothing else is listed, neither message twice, location first, so at most two |
| GeoLlm.FallbackAsksForLocation | agents/geollm_agent.py:153-163 | on the fallback, the location message is asked for exactly when the prompt has fewer than two words |
| GeoLlm.NameLengthOfNameThen | agents/geollm_agent.py:138-141 | a name followed by a comma or space is read back whole |
| GeoLlm.ParseNamesLast | agents/geollm_agent.py:138-141 | the last listed name is read up to ` data for ` |
| GeoLlm.ParseNamesNext | agents/geollm_agent.py:138-141 | a name followed by `, ` is read and the list continues |
| GeoLlm.ParseNamesOfJoin | agents/geollm_agent.py:138-141 | names joined by `, ` are read back as the same list |
| GeoLlm.ResponseRoundTrip | agents/geollm_agent.py:138-141 | the reply text `I'll fetch <types> data for <city>. Processing your request now...` reads back to the extraction it was made from |
| GeoLlm.MappingNames | agents/geollm_agent.py:98-104 | the mapping's dataset names contain no comma and no space |
| GeoLlm.FallbackNames | agents/geollm_agent.py:98-111 | the fallback lists at least one name and every name it lists contains no comma and no space |
| GeoLlm.FallbackResponseRoundTrip | agents/geollm_agent.py:88-141 | a reply built from the keyword fallback always reads back to that extraction |
| GeoLlm.ConversationalRetrieval | agents/geollm_agent.py:130-151 | the reply holds the extraction, its text and its clarifications, and the text reads back to the extraction; the clarifications are exactly those of `CheckClarificationNeeded`: each message present under its condition, no other message, none twice, location first |
| GeoLlm.ProcessRequest | agents/geollm_agent.py:115-128 | fails with `Could not geocode location: <city>` exactly when geocoding fails; otherwise the city is the geocoder's name, the box is the geocoded one, the types pass through, confidence is 0.95 |
| Validation.NodataFlag | utils/validation.py:30 | `has_nodata` is truthy exactly when nodata is set, not 0, and some pixel equals it under IEEE equality |
| Validation.Metadata | utils/validation.py:12-22 | the first record has `file_exists` true, the CRS, the CRS verdict, shape, bounds, resolution, nodata, dtype and band count |
| Validation.Statistics | utils/validation.py:26-31 | the update adds min, max and `has_nodata` |
| Validation.ValidateRaster | utils/validation.py:9-39 | the record is `Record` of the opened file: an unreadable file gives exactly `{file_exists: False, error}`; a readable one gives the twelve keys with the CRS verdict (true when no CRS is expected, equality otherwise), shape, bounds, resolution, nodata, dtype, band count, min, max and `has_nodata`; the record is well-formed |
| Validation.RecordOfFailure | utils/validation.py:35-39 | an unreadable file gives exactly `file_exists: False` and the error text, so its `crs_match` reads as false |
| Validation.RecordOfReadable | utils/validation.py:12-33 | a readable file gives the twelve keys with each value taken from the raster, `has_nodata` by the nodata rule |
| Validation.MergedEntries | utils/validation.py:27-31 | `update` with new keys keeps the old entries and adds the new ones |
| Validation.RecordFacts | utils/validation.py:9-39 | the record is well-formed, and its `crs_match` reads true exactly when the file was readable and its CRS matches |
| Validation.CreateManifestShape | utils/validation.py:42-51 | the manifest copies the job id, location, box (as `aoi_bbox`), datasets and records, and stamps the UTC time with `Z` |
| Validation.CreateManifestSuccess | utils/validation.py:52-56 | target CRS EPSG:5070 and resolution 30 always; `success` is the AND of the records' `crs_match`, true with no records, false when one record lacks the flag |
| Geocoding.BoundingBoxFrom | utils/geocoding.py:15-38 | a box exactly when both lookups answer and the raw array has four readable entries; indices 0..3 become min_lat, max_lat, min_lon, max_lon; centre and name come from the first lookup |
| Geocoding.GetBoundingBox | utils/geocoding.py:9-38 | no box when the first lookup finds nothing; the name is that lookup's address |
| Geocoding.BboxToGeoJson | utils/geocoding.py:40-53 | a `Polygon` with one closed ring of five `[lon, lat]` positions, each a corner of the box |
| Geocoding.CounterClockwise | utils/geocoding.py:46-52 | twice the ring's signed area is 2·width·height, positive (counterclockwise) when min < max on both axes, negative for an inverted box |
| Geocoding.RingExtent | utils/geocoding.py:46-52 | the ring's least and greatest longitude and latitude are the box's bounds |
| Geocoding.RingFromNominatim | utils/geocoding.py:27-52 | the ring's corners are Nominatim's raw west/east and south/north values |
| Spatial.ReprojectedNodata | utils/spatial_processing.py:101 | the written nodata is the source's when set and non-zero, 255 otherwise, so it is always truthy |
| Spatial.ReprojectedNodataIsChecked | utils/spatial_processing.py:101 | on a reprojected file the `has_nodata` test is never skipped by the falsy-0 rule |
| Text.Words | agents/geollm_agent.py:93 | `str.split()` yields non-empty words free of whitespace |
| Text.WordsOfJoin | agents/geollm_agent.py:93-94 | splitting words joined by single spaces gives the words back |
| Text.IsSubstringAt | agents/geollm_agent.py:107 | `keyword in text` holds exactly when the keyword occurs at some position |
| Text.Lower | agents/geollm_agent.py:90 | lowering keeps the length and maps each character by ASCII case |
| Text.LowerIdempotent | agents/geollm_agent.py:90 | lowering twice is lowering once |
| Text.PaddedValue | agents/data_agent.py:36 | a zero-padded field of a job id reads back as the number |
| Text.DecimalValue | agents/data_agent.py:197 | the decimal text of a year reads back as the year |
| Text.IntText | agents/data_agent.py:159-197 | the text of a year is non-empty and starts with `-` exactly for negative years |

## Left out

- Earth Engine, WorldPop downloads, Nominatim, the LLM chain and rasterio are oracles in the `Io`, `Nominatim` and `Option<Extraction>` parameters. These include `download_geotiff_from_ee`, `requests.get`, `clip_raster`, `reproject_raster`, `os.rename`, `os.path.exists` and `rasterio.open`. Each is modelled by what it reports, not by how it works.
- The LLM prompt template, the OpenAI client and the module-level API-key check are outside the model. The client is an outside service.
- Resampling, masking and transforms in utils/spatial_processing.py are library floating-point work. Only its `src.nodata or 255` rule is modelled.
- Writing `outputs/<job_id>_manifest.json` is the oracle `write`, which either succeeds or raises. What `json.dump` writes into the file is not modelled. Console output is not modelled.
- The order of side effects is not modelled. Each round's oracle is a function of the round number, so the model does not show, for example, that nothing is fetched when geocoding fails.
- The clock (`datetime.now`, `datetime.utcnow().isoformat()`) and `uuid.uuid4` are parameters.
- DataAgent.JobId: years are taken to have four digits. `strftime` behaviour for years before 1000 is not modelled.
- Floating-point arithmetic is not modelled. `nanmin` and `nanmax` are the band's abstract `minValue` and `maxValue`. Coordinates are exact reals. A float is a real or NaN, so equality follows IEEE for NaN only.
- Text.Lower: lowering is ASCII only. Python's full Unicode case mapping is not modelled.
- DataAgent.ResultIsSafe: requires that every numpy scalar hold a bool, int, float or str, the only kind this program creates (the `np.bool_` of `np.any`). A numpy scalar whose `.item()` is a date, a complex number or bytes would pass through `make_json_safe` unconverted. Such values are not modelled.
- DataAgent.JsonSafeIdempotent: has the same restriction to numpy scalars holding a bool, int, float or str, for the same reason.
- The order of keys in Python dicts is not modelled; maps are unordered. `shape`, `bounds` and `resolution` tuples are opaque objects, so `make_json_safe` turns them into their text.
- `conversational_retrieval`'s `except` branch, which returns `{"error": ...}`, is left out. It is unreachable in the source as well as in the model. `parse_prompt_with_llm` already catches any exception from the LLM chain and falls back to keyword parsing (agents/geollm_agent.py:84-86, `ParsePromptWithLlm`). The rest of the `try` block only builds text and a dict from the extraction.
- `process_city_data` raises `ValueError` on a failed geocode, and `process_request` raises one too. Both are modelled as `Failure` results with the same message. A failed manifest write is a `Failure` carrying the oracle's error text.
- Tiling, retries and stitching of downloads do not occur in the modelled code.
- main.py, streamlit_app.py, config/settings.py and the two test scripts are not part of this model.

=== FILE: data_agent.dfy ===
/** `EarthEngineDataAgentComplete` of agents/data_agent.py: the per-dataset
    pipelines (download, clip, reproject, rename), the job loop that records
    the datasets whose output file exists, the manifest it returns, the
    conversion of that manifest to JSON-safe values, and the job id format.
    Every side effect is an oracle reporting success or failure. */
module DataAgent {
  import opened Util
  import opened Text
  import opened Json
  import Geocoding
  import Validation

  /** The four dataset kinds the job's if/elif chain knows. */
  datatype Dataset = LandCover | TreeCover | Ndvi | Population

  /** The branch of the if/elif chain a requested name selects; `None` for
      every other name (including "basemap"), which the loop skips. */
  function Dispatch(dataType: string): (d: Option<Dataset>)
    ensures d.Some? <==> dataType in {"land_cover", "tree_cover", "ndvi", "population"}
  {
    if dataType == "land_cover" then Some(LandCover)
    else if dataType == "tree_cover" then Some(TreeCover)
    else if dataType == "ndvi" then Some(Ndvi)
    else if dataType == "population" then Some(Population)
    else None
  }

  /** The `source` recorded for a dataset. */
  function SourceName(d: Dataset): string {
    match d
    case LandCover => "NLCD Land Cover"
    case TreeCover => "NLCD Tree Canopy"
    case Ndvi => "Sentinel-2 NDVI"
    case Population => "WorldPop Population"
  }

  /** The stem of a dataset's file names. */
  function FilePrefix(d: Dataset): string {
    match d
    case LandCover => "landcover"
    case TreeCover => "treecover"
    case Ndvi => "ndvi"
    case Population => "population"
  }

  function RawFile(d: Dataset): string { "temp/" + FilePrefix(d) + "_raw.tif" }
  function ClippedFile(d: Dataset): string { "temp/" + FilePrefix(d) + "_clipped.tif" }
  function ReprojectedFile(d: Dataset): string { "temp/" + FilePrefix(d) + "_reprojected.tif" }

  /** The fixed path a successful pipeline returns. */
  function FinalFile(d: Dataset): string { "outputs/" + FilePrefix(d) + "_aligned.tif" }

  /** The tree-canopy release covers 2011 to 2023; any other year is
      replaced by 2021. */
  function TreeCoverYear(year: int): (y: int)
    ensures 2011 <= y <= 2023
    ensures 2011 <= year <= 2023 ==> y == year
    ensures !(2011 <= year <= 2023) ==> y == 2021
  {
    if 2011 <= year <= 2023 then year else 2021
  }

  /** What a download stage asks for: an Earth Engine image export at a
      scale in metres, or an HTTP GET. */
  datatype Request =
    | EeImage(asset: string, band: string, scale: int)
    | EeCollectionYear(collection: string, year: int, band: string, scale: int)
    | EeSummerNdvi(collection: string, startDate: string, endDate: string,
                   maxCloudPercent: int, nirBand: string, redBand: string, scale: int)
    | Http(url: string)

  /** The request the first stage of each dataset's pipeline makes. The
      land-cover image is the 2019 release whatever the year. */
  function DownloadRequest(d: Dataset, year: int): (r: Request)
    ensures d == TreeCover ==> r.EeCollectionYear? && 2011 <= r.year <= 2023
    ensures r.Http? <==> d == Population
  {
    match d
    case LandCover => EeImage("USGS/NLCD_RELEASES/2019_REL/NLCD/2019", "landcover", 30)
    case TreeCover =>
      EeCollectionYear("USGS/NLCD_RELEASES/2023_REL/TCC/v2023-5", TreeCoverYear(year),
                       "NLCD_Percent_Tree_Canopy_Cover", 30)
    case Ndvi =>
      EeSummerNdvi("COPERNICUS/S2_SR_HARMONIZED", IntText(year) + "-06-01", IntText(year) + "-08-31",
                   20, "B8", "B4", 30)
    case Population =>
      Http("https://data.worldpop.org/GIS/Population/Global_2000_2020/" + IntText(year)
           + "/USA/usa_ppp_" + IntText(year) + "_UNadj.tif")
  }

  /** The side effects the agent performs, each reporting whether it
      succeeded (a failure stands for a `False` return, a non-200 status or
      an exception): the download of a request into a file, `clip_raster`,
      `reproject_raster`, `os.rename`, `os.path.exists`, and opening a file
      with rasterio for validation. */
  datatype Io = Io(
    download: (Request, Geocoding.BBox, string) -> bool,
    clip: (string, string, Geocoding.BBox) -> bool,
    reproject: (string, string) -> bool,
    rename: (string, string) -> bool,
    fileExists: string -> bool,
    open: string -> Result<Validation.Raster>)

  datatype Stage = Download | Clip | Reproject | Rename

  /** The order in which every `get_*_raster` runs its stages. */
  const StageOrder: seq<Stage> := [Download, Clip, Reproject, Rename]

  /** Whether a stage succeeds, with the file names the source passes it. */
  predicate StageSucceeds(d: Dataset, bbox: Geocoding.BBox, year: int, io: Io, s: Stage) {
    match s
    case Download => io.download(DownloadRequest(d, year), bbox, RawFile(d))
    case Clip => io.clip(RawFile(d), ClippedFile(d), bbox)
    case Reproject => io.reproject(ClippedFile(d), ReprojectedFile(d))
    case Rename => io.rename(ReprojectedFile(d), FinalFile(d))
  }

  /** One pipeline run: the returned path and the stages invoked, in order. */
  datatype Run = Run(path: Option<string>, invoked: seq<Stage>)

  /** `get_landcover_raster`, `get_treecover_raster`, `get_ndvi_raster`,
      `get_population_raster`: an early-return chain. */
  function RunPipeline(d: Dataset, bbox: Geocoding.BBox, year: int, io: Io): (r: Run)
    ensures 1 <= |r.invoked| <= 4 && r.invoked == StageOrder[..|r.invoked|]
    ensures forall i :: 0 <= i < |r.invoked| - 1 ==> StageSucceeds(d, bbox, year, io, r.invoked[i])
    ensures r.path.None? ==> !StageSucceeds(d, bbox, year, io, r.invoked[|r.invoked| - 1])
    ensures r.path.Some? <==> forall s :: StageSucceeds(d, bbox, year, io, s)
    ensures r.path.Some? ==> r.path.value == FinalFile(d) && r.invoked == StageOrder
  {
    if !StageSucceeds(d, bbox, year, io, Download) then Run(None, [Download])
    else if !StageSucceeds(d, bbox, year, io, Clip) then Run(None, [Download, Clip])
    else if !StageSucceeds(d, bbox, year, io, Reproject) then Run(None, [Download, Clip, Reproject])
    else if !StageSucceeds(d, bbox, year, io, Rename) then Run(None, StageOrder)
    else Run(Some(FinalFile(d)), StageOrder)
  }

  /** A round records `dataType` when it is a known name, every stage of its
      pipeline succeeds, and the final file then exists. */
  predicate Recorded(dataType: string, bbox: Geocoding.BBox, year: int, io: Io) {
    && Dispatch(dataType).Some?
    && (forall s :: StageSucceeds(Dispatch(dataType).value, bbox, year, io, s))
    && io.fileExists(FinalFile(Dispatch(dataType).value))
  }

  /** The validator accepts a recorded file: it opens, its band reads, and
      its CRS is EPSG:5070. */
  predicate CrsAccepted(dataType: string, io: Io)
    requires Dispatch(dataType).Some?
  {
    var file := io.open(FinalFile(Dispatch(dataType).value));
    Validation.Readable(file) && Validation.CrsMatch(Some(Validation.TargetCrs), file.value.crs)
  }

  /** The record the validator returns for a dataset's final file,
      checked against EPSG:5070. */
  function ValidationOf(d: Dataset, io: Io): map<string, Value> {
    Validation.Record(io.open(FinalFile(d)), Some(Validation.TargetCrs))
  }

  /** The bounding-box dictionary as the manifest stores it. */
  function BBoxValue(b: Geocoding.BBox): Value {
    Dict(map[
      "min_lat" := Num(Finite(b.minLat)),
      "max_lat" := Num(Finite(b.maxLat)),
      "min_lon" := Num(Finite(b.minLon)),
      "max_lon" := Num(Finite(b.maxLon)),
      "center_lat" := Num(Finite(b.centerLat)),
      "center_lon" := Num(Finite(b.centerLon)),
      "name" := Str(b.name)
    ])
  }

  /** The `dataset_info` entry of a recorded dataset. */
  function DatasetEntry(d: Dataset, bbox: Value, year: int, validation: map<string, Value>): Value {
    Dict(map[
      "source" := Str(SourceName(d)),
      "resolution" := Str("30m"),
      "crs" := Str(Validation.TargetCrs),
      "bbox" := bbox,
      "year" := Int(year),
      "validation" := EntryValidation(validation)
    ])
  }

  /** The `validation` part of a `dataset_info` entry: five fields read from
      the validator's record with `.get`. */
  function EntryValidation(validation: map<string, Value>): Value {
    Dict(map[
      "crs_match" := Get(validation, "crs_match", Bool(false)),
      "bounds" := Get(validation, "bounds", Null),
      "shape" := Get(validation, "shape", Null),
      "min_value" := Get(validation, "min_value", Null),
      "max_value" := Get(validation, "max_value", Null)
    ])
  }

  /** A `dataset_info` entry names its source, the fixed 30 m resolution and
      EPSG:5070, and copies the validator's CRS verdict, reading a missing
      verdict as `False`. */
  lemma DatasetEntryShape(d: Dataset, bbox: Value, year: int, validation: map<string, Value>)
    ensures var entry := DatasetEntry(d, bbox, year, validation);
      && entry.Dict?
      && entry.fields.Keys == {"source", "resolution", "crs", "bbox", "year", "validation"}
      && entry.fields["source"] == Str(SourceName(d))
      && entry.fields["resolution"] == Str("30m")
      && entry.fields["crs"] == Str(Validation.TargetCrs)
      && entry.fields["bbox"] == bbox && entry.fields["year"] == Int(year)
      && entry.fields["validation"].Dict?
      && entry.fields["validation"].fields.Keys == {"crs_match", "bounds", "shape", "min_value", "max_value"}
      && entry.fields["validation"].fields["crs_match"] == Get(validation, "crs_match", Bool(false))
      && ("crs_match" !in validation ==> entry.fields["validation"].fields["crs_match"] == Bool(false))
      && entry.fields["validation"].fields["bounds"] == Get(validation, "bounds", Null)
      && entry.fields["validation"].fields["shape"] == Get(validation, "shape", Null)
      && entry.fields["validation"].fields["min_value"] == Get(validation, "min_value", Null)
      && entry.fields["validation"].fields["max_value"] == Get(validation, "max_value", Null)
  {
  }

  /** `make_json_safe(obj)`: dictionaries and lists are converted element by
      element, a numpy scalar becomes its `.item()`, plain values stay, and
      anything else becomes the text `str()` gives for it. */
  function MakeJsonSafe(v: Value): (r: Value)
    ensures v.Dict? ==> r.Dict? && r.fields.Keys == v.fields.Keys
    ensures v.Dict? ==> forall k :: k in v.fields ==> r.fields[k] == MakeJsonSafe(v.fields[k])
    ensures v.List? ==> r.List? && |r.items| == |v.items|
    ensures v.List? ==> forall i :: 0 <= i < |v.items| ==> r.items[i] == MakeJsonSafe(v.items[i])
    ensures IsPrimitive(v) ==> r == v
    ensures v.NpScalar? ==> r == v.item
    ensures v.Object? ==> r == Str(v.text)
  {
    match v
    case Dict(m) => Dict(map k | k in m :: MakeJsonSafe(m[k]))
    case List(xs) => List(seq(|xs|, i requires 0 <= i < |xs| => MakeJsonSafe(xs[i])))
    case NpScalar(x) => x
    case Object(text) => Str(text)
    case _ => v
  }

  /** A value that is already JSON-safe is left exactly as it is. */
  lemma {:induction false} SafeIsFixpoint(v: Value)
    requires IsSafe(v)
    ensures MakeJsonSafe(v) == v
  {
    match v
    case Dict(m) =>
      forall k | k in m ensures MakeJsonSafe(m[k]) == m[k] {
        SafeIsFixpoint(m[k]);
      }
      assert (map k | k in m :: MakeJsonSafe(m[k])) == m;
    case List(xs) =>
      forall i | 0 <= i < |xs| ensures MakeJsonSafe(xs[i]) == xs[i] {
        SafeIsFixpoint(xs[i]);
      }
      assert seq(|xs|, i requires 0 <= i < |xs| => MakeJsonSafe(xs[i])) == xs;
    case _ =>
  }

  /** The conversion leaves no numpy scalar and no other object behind. */
  lemma {:induction false} ResultIsSafe(v: Value)
    requires WellFormed(v)
    ensures IsSafe(MakeJsonSafe(v))
  {
    match v
    case Dict(m) =>
      forall k | k in m ensures IsSafe(MakeJsonSafe(m[k])) {
        ResultIsSafe(m[k]);
      }
    case List(xs) =>
      forall i | 0 <= i < |xs| ensures IsSafe(MakeJsonSafe(xs[i])) {
        ResultIsSafe(xs[i]);
      }
    case _ =>
  }

  /** Applying the conversion twice gives the same as applying it once. */
  lemma JsonSafeIdempotent(v: Value)
    requires WellFormed(v)
    ensures MakeJsonSafe(MakeJsonSafe(v)) == MakeJsonSafe(v)
  {
    ResultIsSafe(v);
    SafeIsFixpoint(MakeJsonSafe(v));
  }

  /** A dictionary is converted entry by entry. */
  lemma JsonSafeAt(m: map<string, Value>, k: string)
    requires k in m
    ensures MakeJsonSafe(Dict(m)).fields[k] == MakeJsonSafe(m[k])
  {
  }

  /** In the converted record of a readable file, `has_nodata` is the plain
      boolean numpy computed (the `np.bool_` unwrapped), and `crs_match` is
      the CRS verdict. */
  lemma ConvertedRecord(file: Result<Validation.Raster>, expectedCrs: Option<string>)
    requires Validation.Readable(file)
    ensures var converted, src := MakeJsonSafe(Dict(Validation.Record(file, expectedCrs))), file.value;
      && converted.fields["has_nodata"]
           == Bool(&& src.nodata.Some?
                   && src.nodata.value != Finite(0.0)
                   && exists i :: 0 <= i < |src.band.value.pixels| && FloatEq(src.band.value.pixels[i], src.nodata.value))
      && converted.fields["crs_match"] == Bool(Validation.CrsMatch(expectedCrs, src.crs))
  {
    var src := file.value;
    Validation.RecordOfReadable(file, expectedCrs);
    ConvertedNodataFlag(Validation.Record(file, expectedCrs), src.band.value.pixels, src.nodata);
    JsonSafeAt(Validation.Record(file, expectedCrs), "crs_match");
  }

  /** Converting a record turns its `has_nodata` flag into a plain boolean
      that is true exactly when the flag was truthy. */
  lemma ConvertedNodataFlag(record: map<string, Value>, pixels: seq<Float>, nodata: Option<Float>)
    requires "has_nodata" in record && record["has_nodata"] == Validation.NodataFlag(pixels, nodata)
    ensures MakeJsonSafe(Dict(record)).fields["has_nodata"]
              == Bool(&& nodata.Some?
                      && nodata.value != Finite(0.0)
                      && exists i :: 0 <= i < |pixels| && FloatEq(pixels[i], nodata.value))
  {
    var flag := Validation.NodataFlag(pixels, nodata);
    JsonSafeAt(record, "has_nodata");
    assert flag.Bool? || (flag.NpScalar? && flag.item.Bool?);
  }

  /** The local clock reading `datetime.now()` as the job id uses it. */
  datatype DateTime = DateTime(year: nat, month: nat, day: nat, hour: nat, minute: nat, second: nat)

  /** The field ranges of a `datetime` in years 1000 to 9999. */
  predicate ValidDateTime(t: DateTime) {
    && 1000 <= t.year <= 9999 && 1 <= t.month <= 12 && 1 <= t.day <= 31
    && t.hour <= 23 && t.minute <= 59 && t.second <= 59
  }

  /** `str(uuid)[:8]`. */
  function UuidPrefix(uuid: string): string {
    if |uuid| <= 8 then uuid else uuid[..8]
  }

  /** `generate_job_id()`: `data_<YYYYmmdd>_<HHMMSS>_<first 8 characters of
      the uuid>`, the clock and the uuid given as parameters. */
  function JobId(now: DateTime, uuid: string): (id: string)
    ensures |id| == 21 + |UuidPrefix(uuid)|
    ensures id[..5] == "data_" && id[13] == '_' && id[20] == '_'
    ensures forall i :: 5 <= i < 13 || 14 <= i < 20 ==> IsDigit(id[i])
    ensures id[21..] == UuidPrefix(uuid)
  {
    "data_" + Padded(now.year, 4) + Padded(now.month, 2) + Padded(now.day, 2)
      + "_" + Padded(now.hour, 2) + Padded(now.minute, 2) + Padded(now.second, 2)
      + "_" + UuidPrefix(uuid)
  }

  /** Reads a job id back into its clock reading and uuid prefix. */
  function ParseJobId(id: string): Option<(DateTime, string)> {
    if |id| < 21 || id[..5] != "data_" || id[13] != '_' || id[20] != '_' then None
    else if !(forall i | 5 <= i < 20 && i != 13 :: IsDigit(id[i])) then None
    else
      Some((DateTime(DigitsValue(id[5..9]), DigitsValue(id[9..11]), DigitsValue(id[11..13]),
                     DigitsValue(id[14..16]), DigitsValue(id[16..18]), DigitsValue(id[18..20])),
            id[21..]))
  }

  /** A job id determines the time it was generated and the uuid prefix. */
  lemma JobIdRoundTrip(now: DateTime, uuid: string)
    requires ValidDateTime(now)
    ensures ParseJobId(JobId(now, uuid)) == Some((now, UuidPrefix(uuid)))
  {
    var id := JobId(now, uuid);
    assert id[5..9] == Padded(now.year, 4);
    assert id[9..11] == Padded(now.month, 2);
    assert id[11..13] == Padded(now.day, 2);
    assert id[14..16] == Padded(now.hour, 2);
    assert id[16..18] == Padded(now.minute, 2);
    assert id[18..20] == Padded(now.second, 2);
    assert Pow10(4) == 10000 && Pow10(2) == 100;
    PaddedValue(now.year, 4);
    PaddedValue(now.month, 2);
    PaddedValue(now.day, 2);
    PaddedValue(now.hour, 2);
    PaddedValue(now.minute, 2);
    PaddedValue(now.second, 2);
  }

  /** The three maps the loop fills: `outputs`, `dataset_info` and
      `validation_results`. */
  datatype Collection = Collection(
    outputs: map<string, Value>,
    datasetInfo: map<string, Value>,
    validationResults: map<string, map<string, Value>>)

  /** The maps after the loop has seen `seen`, round `i` performing its side
      effects through `rounds(i)`. A round that records a name writes all
      three of its entries, replacing those of an earlier round; a round
      that does not record it leaves the maps as they were. */
  function Collected(seen: seq<string>, bbox: Geocoding.BBox, year: int, rounds: nat -> Io): Collection
    decreases |seen|
  {
    if seen == [] then Collection(map[], map[], map[])
    else
      var n := |seen| - 1;
      var prev := Collected(seen[..n], bbox, year, rounds);
      var t := seen[n];
      if Recorded(t, bbox, year, rounds(n)) then
        var d := Dispatch(t).value;
        var validation := ValidationOf(d, rounds(n));
        Collection(
          prev.outputs[t := Str(FinalFile(d))],
          prev.datasetInfo[t := DatasetEntry(d, BBoxValue(bbox), year, validation)],
          prev.validationResults[t := validation])
      else prev
  }

  /** The last round of `seen` that recorded `t`, if any. */
  function LastRound(seen: seq<string>, t: string, bbox: Geocoding.BBox, year: int, rounds: nat -> Io): (r: Option<nat>)
    ensures r.Some? <==> exists i :: 0 <= i < |seen| && seen[i] == t && Recorded(t, bbox, year, rounds(i))
    ensures r.Some? ==> r.value < |seen| && seen[r.value] == t && Recorded(t, bbox, year, rounds(r.value))
    ensures r.Some? ==> forall j :: r.value < j < |seen| && seen[j] == t ==> !Recorded(t, bbox, year, rounds(j))
    decreases |seen|
  {
    if seen == [] then None
    else
      var n := |seen| - 1;
      if seen[n] == t && Recorded(t, bbox, year, rounds(n)) then Some(n)
      else
        var r := LastRound(seen[..n], t, bbox, year, rounds);
        assert forall i :: 0 <= i < n ==> seen[..n][i] == seen[i];
        r
  }

  lemma EntryValidationWellFormed(validation: map<string, Value>)
    requires WellFormed(Dict(validation))
    ensures WellFormed(EntryValidation(validation))
  {
    var v := validation;
    var i0: map<string, Value> := map[];
    var i1 := i0["crs_match" := Get(v, "crs_match", Bool(false))];
    var i2 := i1["bounds" := Get(v, "bounds", Null)];
    var i3 := i2["shape" := Get(v, "shape", Null)];
    var i4 := i3["min_value" := Get(v, "min_value", Null)];
    UpdateWellFormed(i0, "crs_match", Get(v, "crs_match", Bool(false)));
    UpdateWellFormed(i1, "bounds", Get(v, "bounds", Null));
    UpdateWellFormed(i2, "shape", Get(v, "shape", Null));
    UpdateWellFormed(i3, "min_value", Get(v, "min_value", Null));
    UpdateWellFormed(i4, "max_value", Get(v, "max_value", Null));
  }

  lemma DatasetEntryWellFormed(d: Dataset, bbox: Geocoding.BBox, year: int, validation: map<string, Value>)
    requires WellFormed(Dict(validation))
    ensures WellFormed(DatasetEntry(d, BBoxValue(bbox), year, validation))
  {
    EntryValidationWellFormed(validation);
    BBoxWellFormed(bbox);
    var o0: map<string, Value> := map[];
    var o1 := o0["source" := Str(SourceName(d))];
    var o2 := o1["resolution" := Str("30m")];
    var o3 := o2["crs" := Str(Validation.TargetCrs)];
    var o4 := o3["bbox" := BBoxValue(bbox)];
    var o5 := o4["year" := Int(year)];
    UpdateWellFormed(o0, "source", Str(SourceName(d)));
    UpdateWellFormed(o1, "resolution", Str("30m"));
    UpdateWellFormed(o2, "crs", Str(Validation.TargetCrs));
    UpdateWellFormed(o3, "bbox", BBoxValue(bbox));
    UpdateWellFormed(o4, "year", Int(year));
    UpdateWellFormed(o5, "validation", EntryValidation(validation));
  }

  /** The three maps have the same keys: the names some round recorded. */
  lemma {:induction false} CollectedKeys(seen: seq<string>, bbox: Geocoding.BBox, year: int, rounds: nat -> Io)
    ensures var c := Collected(seen, bbox, year, rounds);
      && c.datasetInfo.Keys == c.outputs.Keys
      && c.validationResults.Keys == c.outputs.Keys
      && (forall t :: t in c.outputs <==> LastRound(seen, t, bbox, year, rounds).Some?)
    decreases |seen|
  {
    if seen != [] {
      CollectedKeys(seen[..|seen| - 1], bbox, year, rounds);
    }
  }

  /** Each recorded name maps to the final path of its dataset. */
  lemma {:induction false} CollectedPaths(seen: seq<string>, bbox: Geocoding.BBox, year: int, rounds: nat -> Io)
    ensures var c := Collected(seen, bbox, year, rounds);
      forall t :: t in c.outputs ==> Dispatch(t).Some? && c.outputs[t] == Str(FinalFile(Dispatch(t).value))
    decreases |seen|
  {
    if seen != [] {
      CollectedPaths(seen[..|seen| - 1], bbox, year, rounds);
    }
  }

  /** Each recorded name's validation record is the validator's record on
      the final file of the last round that recorded it. */
  lemma {:induction false} CollectedRecords(seen: seq<string>, bbox: Geocoding.BBox, year: int, rounds: nat -> Io)
    ensures var c := Collected(seen, bbox, year, rounds);
      forall t :: t in c.validationResults ==>
        && LastRound(seen, t, bbox, year, rounds).Some?
        && Dispatch(t).Some?
        && c.validationResults[t]
             == ValidationOf(Dispatch(t).value, rounds(LastRound(seen, t, bbox, year, rounds).value))
    decreases |seen|
  {
    if seen != [] {
      var n := |seen| - 1;
      var prev, last := seen[..n], seen[n];
      var c, pc := Collected(seen, bbox, year, rounds), Collected(prev, bbox, year, rounds);
      CollectedRecords(prev, bbox, year, rounds);
      forall t | t in c.validationResults && t != last
        ensures t in pc.validationResults
        ensures LastRound(seen, t, bbox, year, rounds) == LastRound(prev, t, bbox, year, rounds)
      {
      }
    }
  }

  /** Each `dataset_info` entry is built from the validation record stored
      under the same name. */
  lemma {:induction false} CollectedInfo(seen: seq<string>, bbox: Geocoding.BBox, year: int, rounds: nat -> Io)
    ensures var c := Collected(seen, bbox, year, rounds);
      forall t :: t in c.datasetInfo ==>
        && t in c.validationResults
        && Dispatch(t).Some?
        && c.datasetInfo[t] == DatasetEntry(Dispatch(t).value, BBoxValue(bbox), year, c.validationResults[t])
    decreases |seen|
  {
    if seen != [] {
      CollectedInfo(seen[..|seen| - 1], bbox, year, rounds);
    }
  }

  /** A name is in `outputs` exactly when some round that saw it recorded
      it: a known dataset whose whole pipeline succeeded in that round and
      whose final file then existed. Unknown names such as "basemap" never
      are, and a name that failed in a later round keeps an earlier
      round's entries. */
  lemma OutputsMembers(seen: seq<string>, bbox: Geocoding.BBox, year: int, rounds: nat -> Io)
    ensures forall t :: t in Collected(seen, bbox, year, rounds).outputs <==>
              && t in {"land_cover", "tree_cover", "ndvi", "population"}
              && exists i :: 0 <= i < |seen| && seen[i] == t
                   && (forall s :: StageSucceeds(Dispatch(t).value, bbox, year, rounds(i), s))
                   && rounds(i).fileExists(FinalFile(Dispatch(t).value))
  {
    CollectedKeys(seen, bbox, year, rounds);
  }

  /** The records and entries the loop stores hold only well-formed
      values. */
  lemma CollectedWellFormed(seen: seq<string>, bbox: Geocoding.BBox, year: int, rounds: nat -> Io)
    ensures forall t :: t in Collected(seen, bbox, year, rounds).validationResults ==>
              WellFormed(Dict(Collected(seen, bbox, year, rounds).validationResults[t]))
    ensures forall t :: t in Collected(seen, bbox, year, rounds).datasetInfo ==>
              WellFormed(Collected(seen, bbox, year, rounds).datasetInfo[t])
  {
    var c := Collected(seen, bbox, year, rounds);
    CollectedRecords(seen, bbox, year, rounds);
    CollectedInfo(seen, bbox, year, rounds);
    forall t | t in c.validationResults ensures WellFormed(Dict(c.validationResults[t])) {
      var d, io := Dispatch(t).value, rounds(LastRound(seen, t, bbox, year, rounds).value);
      Validation.RecordFacts(io.open(FinalFile(d)), Some(Validation.TargetCrs));
    }
    forall t | t in c.datasetInfo ensures WellFormed(c.datasetInfo[t]) {
      DatasetEntryWellFormed(Dispatch(t).value, bbox, year, c.validationResults[t]);
    }
  }

  /** The manifest `process_city_data` assembles after the loop, before
      the conversion to JSON-safe values. */
  function FinalManifest(
    jobId: string, cityName: string, bbox: Geocoding.BBox, outputs: map<string, Value>,
    datasetInfo: map<string, Value>, validationResults: map<string, map<string, Value>>,
    utcNow: string
  ): (m: map<string, Value>)
    ensures m.Keys == Validation.ManifestKeys + {"outputs", "status"}
    ensures m["outputs"] == Dict(outputs)
    ensures m["status"] == Str(if outputs != map[] then "completed" else "failed")
  {
    Validation.CreateManifest(jobId, cityName, BBoxValue(bbox), datasetInfo, validationResults, utcNow)
      ["outputs" := Dict(outputs)]
      ["status" := Str(if |outputs| > 0 then "completed" else "failed")]
  }

  lemma BBoxWellFormed(b: Geocoding.BBox)
    ensures WellFormed(BBoxValue(b))
  {
    var m := BBoxValue(b).fields;
    forall k | k in m ensures WellFormed(m[k]) {
      assert k in {"min_lat", "max_lat", "min_lon", "max_lon", "center_lat", "center_lon", "name"};
    }
  }

  /** Adding a well-formed entry to a well-formed dictionary keeps it so. */
  lemma UpdateWellFormed(m: map<string, Value>, k: string, v: Value)
    requires WellFormed(Dict(m)) && WellFormed(v)
    ensures WellFormed(Dict(m[k := v]))
  {
  }

  lemma ValidationSectionWellFormed(validationResults: map<string, map<string, Value>>)
    requires forall t :: t in validationResults ==> WellFormed(Dict(validationResults[t]))
    ensures WellFormed(Validation.ValidationSection(validationResults))
  {
  }

  lemma ProcessingParametersWellFormed(success: bool)
    ensures WellFormed(Validation.Parameters(success))
  {
    var pp := Validation.Parameters(success).fields;
    forall k | k in pp ensures WellFormed(pp[k]) {
      assert k in {"target_crs", "target_resolution", "success"};
    }
  }

  lemma CreateManifestWellFormed(
    jobId: string, location: string, bbox: Value, datasets: map<string, Value>,
    validationResults: map<string, map<string, Value>>, utcNow: string)
    requires WellFormed(bbox)
    requires forall t :: t in validationResults ==> WellFormed(Dict(validationResults[t]))
    requires forall t :: t in datasets ==> WellFormed(datasets[t])
    ensures WellFormed(Dict(Validation.CreateManifest(jobId, location, bbox, datasets, validationResults, utcNow)))
  {
    ValidationSectionWellFormed(validationResults);
    ProcessingParametersWellFormed(Validation.AllCrsMatch(validationResults));
    var m0: map<string, Value> := map[];
    var m1 := m0["job_id" := Str(jobId)];
    var m2 := m1["location" := Str(location)];
    var m3 := m2["aoi_bbox" := bbox];
    var m4 := m3["timestamp" := Str(utcNow + "Z")];
    var m5 := m4["datasets" := Dict(datasets)];
    var m6 := m5["validation" := Validation.ValidationSection(validationResults)];
    UpdateWellFormed(m0, "job_id", Str(jobId));
    UpdateWellFormed(m1, "location", Str(location));
    UpdateWellFormed(m2, "aoi_bbox", bbox);
    UpdateWellFormed(m3, "timestamp", Str(utcNow + "Z"));
    UpdateWellFormed(m4, "datasets", Dict(datasets));
    UpdateWellFormed(m5, "validation", Validation.ValidationSection(validationResults));
    UpdateWellFormed(m6, "processing_parameters", Validation.Parameters(Validation.AllCrsMatch(validationResults)));
  }

  /** The manifest before conversion holds only well-formed values. */
  lemma ManifestWellFormed(
    jobId: string, cityName: string, bbox: Geocoding.BBox, outputs: map<string, Value>,
    datasetInfo: map<string, Value>, validationResults: map<string, map<string, Value>>,
    utcNow: string)
    requires forall t :: t in outputs ==> outputs[t].Str?
    requires forall t :: t in validationResults ==> WellFormed(Dict(validationResults[t]))
    requires forall t :: t in datasetInfo ==> WellFormed(datasetInfo[t])
    ensures WellFormed(Dict(FinalManifest(jobId, cityName, bbox, outputs, datasetInfo, validationResults, utcNow)))
  {
    BBoxWellFormed(bbox);
    CreateManifestWellFormed(jobId, cityName, BBoxValue(bbox), datasetInfo, validationResults, utcNow);
    var m := FinalManifest(jobId, cityName, bbox, outputs, datasetInfo, validationResults, utcNow);
    var cm := Validation.CreateManifest(jobId, cityName, BBoxValue(bbox), datasetInfo, validationResults, utcNow);
    forall k | k in m ensures WellFormed(m[k]) {
      if k != "outputs" && k != "status" {
        assert k in cm && m[k] == cm[k];
      }
    }
  }

  /** The geocoded box is JSON-safe as it stands. */
  lemma BBoxSafe(b: Geocoding.BBox)
    ensures IsSafe(BBoxValue(b))
  {
    var m := BBoxValue(b).fields;
    forall k | k in m ensures IsSafe(m[k]) {
      assert k in {"min_lat", "max_lat", "min_lon", "max_lon", "center_lat", "center_lon", "name"};
    }
  }

  /** The scalar entries of the returned manifest: it is JSON-safe; it
      carries the job id, the city, the geocoded box, the UTC timestamp and
      the processing parameters; `outputs` is the loop's map and `status`
      says whether it is non-empty. */
  ghost predicate ManifestHeader(
    m: Value, jobId: string, cityName: string, bbox: Geocoding.BBox, utcNow: string,
    outputs: map<string, Value>, success: bool)
  {
    && IsSafe(m)
    && m.Dict?
    && m.fields.Keys == Validation.ManifestKeys + {"outputs", "status"}
    && m.fields["job_id"] == Str(jobId)
    && m.fields["location"] == Str(cityName)
    && m.fields["aoi_bbox"] == BBoxValue(bbox)
    && m.fields["timestamp"] == Str(utcNow + "Z")
    && m.fields["outputs"] == Dict(outputs)
    && m.fields["status"] == Str(if outputs != map[] then "completed" else "failed")
    && m.fields["processing_parameters"] == Validation.Parameters(success)
  }

  /** The `datasets` and `validation` entries of the returned manifest hold
      the loop's entries and records, each converted to JSON-safe values. */
  ghost predicate ManifestTables(m: Value, c: Collection) {
    && m.Dict?
    && "datasets" in m.fields && "validation" in m.fields
    && m.fields["datasets"].Dict?
    && m.fields["datasets"].fields.Keys == c.datasetInfo.Keys
    && (forall t :: t in c.datasetInfo ==> m.fields["datasets"].fields[t] == MakeJsonSafe(c.datasetInfo[t]))
    && m.fields["validation"].Dict?
    && m.fields["validation"].fields.Keys == c.validationResults.Keys
    && (forall t :: t in c.validationResults ==>
          m.fields["validation"].fields[t] == MakeJsonSafe(Dict(c.validationResults[t])))
  }

  /** What the returned manifest says. */
  ghost predicate ManifestFor(
    m: Value, jobId: string, cityName: string, bbox: Geocoding.BBox, utcNow: string,
    c: Collection, success: bool)
  {
    ManifestHeader(m, jobId, cityName, bbox, utcNow, c.outputs, success) && ManifestTables(m, c)
  }

  /** The validator accepted the file each recorded name had in the last
      round that recorded it. */
  ghost predicate AllAccepted(seen: seq<string>, bbox: Geocoding.BBox, year: int, rounds: nat -> Io) {
    forall t :: LastRound(seen, t, bbox, year, rounds).Some? ==>
      CrsAccepted(t, rounds(LastRound(seen, t, bbox, year, rounds).value))
  }

  /** `success` is true exactly when the validator accepted every recorded
      file. */
  lemma SuccessMeansAccepted(seen: seq<string>, bbox: Geocoding.BBox, year: int, rounds: nat -> Io)
    ensures Validation.AllCrsMatch(Collected(seen, bbox, year, rounds).validationResults)
              == AllAccepted(seen, bbox, year, rounds)
  {
    var c := Collected(seen, bbox, year, rounds);
    CollectedKeys(seen, bbox, year, rounds);
    CollectedRecords(seen, bbox, year, rounds);
    forall t | LastRound(seen, t, bbox, year, rounds).Some?
      ensures Truthy(Get(c.validationResults[t], "crs_match", Bool(false)))
                == CrsAccepted(t, rounds(LastRound(seen, t, bbox, year, rounds).value))
    {
      var d, io := Dispatch(t).value, rounds(LastRound(seen, t, bbox, year, rounds).value);
      Validation.RecordFacts(io.open(FinalFile(d)), Some(Validation.TargetCrs));
    }
  }

  /** The entries of the manifest before conversion. */
  lemma FinalManifestShape(
    jobId: string, cityName: string, bbox: Geocoding.BBox, outputs: map<string, Value>,
    datasetInfo: map<string, Value>, validationResults: map<string, map<string, Value>>,
    utcNow: string)
    ensures var fm := FinalManifest(jobId, cityName, bbox, outputs, datasetInfo, validationResults, utcNow);
      && fm.Keys == Validation.ManifestKeys + {"outputs", "status"}
      && fm["job_id"] == Str(jobId) && fm["location"] == Str(cityName)
      && fm["aoi_bbox"] == BBoxValue(bbox) && fm["timestamp"] == Str(utcNow + "Z")
      && fm["outputs"] == Dict(outputs)
      && fm["status"] == Str(if outputs != map[] then "completed" else "failed")
      && fm["datasets"] == Dict(datasetInfo)
      && fm["validation"].Dict? && fm["validation"].fields.Keys == validationResults.Keys
      && (forall k :: k in validationResults ==> fm["validation"].fields[k] == Dict(validationResults[k]))
      && fm["processing_parameters"] == Validation.Parameters(Validation.AllCrsMatch(validationResults))
  {
    var cm := Validation.CreateManifest(jobId, cityName, BBoxValue(bbox), datasetInfo, validationResults, utcNow);
    Validation.CreateManifestShape(jobId, cityName, BBoxValue(bbox), datasetInfo, validationResults, utcNow);
  }

  /** Converting a well-formed manifest keeps its scalar entries. */
  lemma ConvertedHeader(
    fm: map<string, Value>, jobId: string, cityName: string, bbox: Geocoding.BBox, utcNow: string,
    outputs: map<string, Value>, success: bool)
    requires forall t :: t in outputs ==> outputs[t].Str?
    requires WellFormed(Dict(fm))
    requires fm.Keys == Validation.ManifestKeys + {"outputs", "status"}
    requires fm["job_id"] == Str(jobId) && fm["location"] == Str(cityName)
    requires fm["aoi_bbox"] == BBoxValue(bbox) && fm["timestamp"] == Str(utcNow + "Z")
    requires fm["outputs"] == Dict(outputs)
    requires fm["status"] == Str(if outputs != map[] then "completed" else "failed")
    requires fm["processing_parameters"] == Validation.Parameters(success)
    ensures ManifestHeader(MakeJsonSafe(Dict(fm)), jobId, cityName, bbox, utcNow, outputs, success)
  {
    ResultIsSafe(Dict(fm));
    ReturnedEntries(fm, outputs, if outputs != map[] then "completed" else "failed");
    ConvertedScalars(fm, jobId, cityName, bbox, utcNow, success);
  }

  /** Converting a manifest keeps its string entries, its box and its
      processing parameters, all of which are already JSON-safe. */
  lemma ConvertedScalars(
    fm: map<string, Value>, jobId: string, cityName: string, bbox: Geocoding.BBox, utcNow: string,
    success: bool)
    requires "job_id" in fm && fm["job_id"] == Str(jobId)
    requires "location" in fm && fm["location"] == Str(cityName)
    requires "aoi_bbox" in fm && fm["aoi_bbox"] == BBoxValue(bbox)
    requires "timestamp" in fm && fm["timestamp"] == Str(utcNow + "Z")
    requires "processing_parameters" in fm && fm["processing_parameters"] == Validation.Parameters(success)
    ensures MakeJsonSafe(Dict(fm)).fields["job_id"] == Str(jobId)
    ensures MakeJsonSafe(Dict(fm)).fields["location"] == Str(cityName)
    ensures MakeJsonSafe(Dict(fm)).fields["aoi_bbox"] == BBoxValue(bbox)
    ensures MakeJsonSafe(Dict(fm)).fields["timestamp"] == Str(utcNow + "Z")
    ensures MakeJsonSafe(Dict(fm)).fields["processing_parameters"] == Validation.Parameters(success)
  {
    JsonSafeAt(fm, "job_id");
    JsonSafeAt(fm, "location");
    JsonSafeAt(fm, "timestamp");
    JsonSafeAt(fm, "aoi_bbox");
    BBoxSafe(bbox);
    SafeIsFixpoint(BBoxValue(bbox));
    JsonSafeAt(fm, "processing_parameters");
    SafeIsFixpoint(Validation.Parameters(success));
  }

  /** Converting a manifest converts each dataset entry and each record. */
  lemma ConvertedTables(fm: map<string, Value>, c: Collection)
    requires "datasets" in fm && fm["datasets"] == Dict(c.datasetInfo)
    requires "validation" in fm && fm["validation"].Dict?
    requires fm["validation"].fields.Keys == c.validationResults.Keys
    requires forall k :: k in c.validationResults ==> fm["validation"].fields[k] == Dict(c.validationResults[k])
    ensures ManifestTables(MakeJsonSafe(Dict(fm)), c)
  {
    JsonSafeAt(fm, "datasets");
    forall t | t in c.datasetInfo
      ensures MakeJsonSafe(Dict(fm)).fields["datasets"].fields[t] == MakeJsonSafe(c.datasetInfo[t])
    {
      JsonSafeAt(c.datasetInfo, t);
    }
    JsonSafeAt(fm, "validation");
    forall t | t in c.validationResults
      ensures MakeJsonSafe(Dict(fm)).fields["validation"].fields[t] == MakeJsonSafe(Dict(c.validationResults[t]))
    {
      JsonSafeAt(fm["validation"].fields, t);
    }
  }

  /** The entries of the converted manifest copied from the loop's maps. */
  lemma ReturnedEntries(manifest: map<string, Value>, outputs: map<string, Value>, status: string)
    requires "outputs" in manifest && manifest["outputs"] == Dict(outputs)
    requires forall t :: t in outputs ==> outputs[t].Str?
    requires "status" in manifest && manifest["status"] == Str(status)
    ensures MakeJsonSafe(Dict(manifest)).fields["outputs"] == Dict(outputs)
    ensures MakeJsonSafe(Dict(manifest)).fields["status"] == Str(status)
  {
    JsonSafeAt(manifest, "outputs");
    SafeIsFixpoint(Dict(outputs));
    JsonSafeAt(manifest, "status");
  }

  /** What the loop's maps give the manifest: string paths, one key set
      for the three maps, well-formed records and entries, and `success`
      exactly when the validator accepted every recorded file. */
  lemma CollectedFacts(seen: seq<string>, bbox: Geocoding.BBox, year: int, rounds: nat -> Io)
    ensures var c := Collected(seen, bbox, year, rounds);
      && (forall t :: t in c.outputs ==> c.outputs[t].Str?)
      && c.datasetInfo.Keys == c.outputs.Keys && c.validationResults.Keys == c.outputs.Keys
      && (forall t :: t in c.validationResults ==> WellFormed(Dict(c.validationResults[t])))
      && (forall t :: t in c.datasetInfo ==> WellFormed(c.datasetInfo[t]))
      && Validation.AllCrsMatch(c.validationResults) == AllAccepted(seen, bbox, year, rounds)
  {
    CollectedKeys(seen, bbox, year, rounds);
    CollectedPaths(seen, bbox, year, rounds);
    CollectedWellFormed(seen, bbox, year, rounds);
    SuccessMeansAccepted(seen, bbox, year, rounds);
  }

  /** The manifest built from the loop's maps says what `ManifestFor` says,
      with `success` taken from the validation records. */
  lemma ReturnedManifest(c: Collection, jobId: string, cityName: string, bbox: Geocoding.BBox, utcNow: string)
    requires forall t :: t in c.outputs ==> c.outputs[t].Str?
    requires c.datasetInfo.Keys == c.outputs.Keys && c.validationResults.Keys == c.outputs.Keys
    requires forall t :: t in c.validationResults ==> WellFormed(Dict(c.validationResults[t]))
    requires forall t :: t in c.datasetInfo ==> WellFormed(c.datasetInfo[t])
    ensures ManifestFor(
              MakeJsonSafe(Dict(FinalManifest(jobId, cityName, bbox, c.outputs, c.datasetInfo, c.validationResults, utcNow))),
              jobId, cityName, bbox, utcNow, c, Validation.AllCrsMatch(c.validationResults))
  {
    FinalManifestShape(jobId, cityName, bbox, c.outputs, c.datasetInfo, c.validationResults, utcNow);
    ManifestWellFormed(jobId, cityName, bbox, c.outputs, c.datasetInfo, c.validationResults, utcNow);
    var fm := FinalManifest(jobId, cityName, bbox, c.outputs, c.datasetInfo, c.validationResults, utcNow);
    ConvertedHeader(fm, jobId, cityName, bbox, utcNow, c.outputs, Validation.AllCrsMatch(c.validationResults));
    ConvertedTables(fm, c);
  }

  /** One round of the loop of `process_city_data`, its side effects going
      through `io`: a known name runs its pipeline, and when the returned
      path is non-empty and the file exists, the file is validated against
      EPSG:5070 and the record returned. */
  method FetchDataset(dataType: string, bbox: Geocoding.BBox, year: int, io: Io)
    returns (validation: Option<map<string, Value>>)
    ensures validation.Some? <==> Recorded(dataType, bbox, year, io)
    ensures validation.Some? ==> validation.value == ValidationOf(Dispatch(dataType).value, io)
  {
    var dataset := Dispatch(dataType);
    if dataset.None? {
      return None;
    }
    var filePath := RunPipeline(dataset.value, bbox, year, io).path;
    assert FinalFile(dataset.value) != "";
    if filePath.Some? && filePath.value != "" && io.fileExists(filePath.value) {
      var record := Validation.ValidateRaster(io.open(filePath.value), Some(Validation.TargetCrs));
      return Some(record);
    }
    return None;
  }

  /** The loop of `process_city_data` over the requested names, round `i`
      performing its side effects through `rounds(i)`. */
  method CollectDatasets(dataTypes: seq<string>, bbox: Geocoding.BBox, year: int, rounds: nat -> Io)
    returns (outputs: map<string, Value>, datasetInfo: map<string, Value>,
             validationResults: map<string, map<string, Value>>)
    ensures Collection(outputs, datasetInfo, validationResults) == Collected(dataTypes, bbox, year, rounds)
  {
    outputs, datasetInfo, validationResults := map[], map[], map[];
    var i := 0;
    while i < |dataTypes|
      invariant 0 <= i <= |dataTypes|
      invariant Collection(outputs, datasetInfo, validationResults) == Collected(dataTypes[..i], bbox, year, rounds)
    {
      var dataType := dataTypes[i];
      assert dataTypes[..i + 1][..i] == dataTypes[..i];
      var validation := FetchDataset(dataType, bbox, year, rounds(i));
      if validation.Some? {
        var d := Dispatch(dataType).value;
        outputs := outputs[dataType := Str(FinalFile(d))];
        validationResults := validationResults[dataType := validation.value];
        datasetInfo := datasetInfo[dataType := DatasetEntry(d, BBoxValue(bbox), year, validation.value)];
      }
      i := i + 1;
    }
    assert dataTypes[..i] == dataTypes;
  }

  /** Where the manifest of job `jobId` is written. */
  function ManifestFile(jobId: string): string {
    "outputs/" + jobId + "_manifest.json"
  }

  /** `process_city_data(city_name, data_types, year)`. The job id is made
      from the clock reading `now` and the uuid `uuid`, the manifest
      timestamp from `utcNow`; geocoding goes through `geo`, the side
      effects of round `i` of the loop through `rounds(i)`, and writing the
      manifest file through `write`, which may raise. */
  method ProcessCityData(
    cityName: string, dataTypes: seq<string>, year: int, geo: Geocoding.Nominatim,
    rounds: nat -> Io, write: string -> Result<()>, now: DateTime, uuid: string, utcNow: string)
    returns (r: Result<Value>)
    ensures r.Failure? <==>
              Geocoding.GetBoundingBox(geo, cityName).None? || write(ManifestFile(JobId(now, uuid))).Failure?
    ensures Geocoding.GetBoundingBox(geo, cityName).None? ==>
              r == Failure("\U{274C} Could not geocode " + cityName)
    ensures Geocoding.GetBoundingBox(geo, cityName).Some? && write(ManifestFile(JobId(now, uuid))).Failure? ==>
              r == Failure(write(ManifestFile(JobId(now, uuid))).error)
    ensures r.Success? ==>
              var bbox := Geocoding.GetBoundingBox(geo, cityName).value;
              ManifestFor(r.value, JobId(now, uuid), cityName, bbox, utcNow,
                          Collected(dataTypes, bbox, year, rounds), AllAccepted(dataTypes, bbox, year, rounds))
  {
    var jobId := JobId(now, uuid);
    var found := Geocoding.GetBoundingBox(geo, cityName);
    if found.None? {
      return Failure("\U{274C} Could not geocode " + cityName);
    }
    var bbox := found.value;
    var outputs, datasetInfo, validationResults := CollectDatasets(dataTypes, bbox, year, rounds);
    var saved := write(ManifestFile(jobId));
    if saved.Failure? {
      return Failure(saved.error);
    }
    var c := Collection(outputs, datasetInfo, validationResults);
    CollectedFacts(dataTypes, bbox, year, rounds);
    ReturnedManifest(c, jobId, cityName, bbox, utcNow);
    r := Success(MakeJsonSafe(Dict(FinalManifest(jobId, cityName, bbox, outputs, datasetInfo, validationResults, utcNow))));
  }
}

=== FILE: geocoding.dfy ===
/** `Geocoder` of utils/geocoding.py: the bounding box of a place from two
    Nominatim lookups, and its GeoJSON polygon (RFC 7946). */
module Geocoding {
  import opened Util

  /** A place returned by a Nominatim lookup. `boundingBox` is the raw
      `raw['boundingbox']` array, `None` when the key is absent; each entry
      is the number `float()` reads from it, `None` when `float()` raises. */
  datatype Place = Place(
    latitude: real,
    longitude: real,
    address: string,
    boundingBox: Option<seq<Option<real>>>)

  /** The geocoding service: the plain lookup `geocode(city)` and the
      detailed lookup `geocode(city, exactly_one=True, addressdetails=True)`;
      `None` when nothing is found or the call raises. */
  datatype Nominatim = Nominatim(
    plain: string -> Option<Place>,
    detailed: string -> Option<Place>)

  /** The dictionary `get_bounding_box` returns. */
  datatype BBox = BBox(
    minLat: real,
    maxLat: real,
    minLon: real,
    maxLon: real,
    centerLat: real,
    centerLon: real,
    name: string)

  /** The raw array has the four entries the field mapping reads, all numbers. */
  predicate Readable(raw: seq<Option<real>>) {
    |raw| >= 4 && raw[0].Some? && raw[1].Some? && raw[2].Some? && raw[3].Some?
  }

  /** The body of `get_bounding_box` once both lookups are done: `location`
      is the plain lookup's answer, `detailed` the detailed one's. */
  function BoundingBoxFrom(location: Option<Place>, detailed: Option<Place>): (r: Option<BBox>)
    ensures r.Some? <==>
              && location.Some? && detailed.Some?
              && detailed.value.boundingBox.Some?
              && Readable(detailed.value.boundingBox.value)
    ensures r.Some? ==>
              var raw := detailed.value.boundingBox.value;
              && r.value.minLat == raw[0].value
              && r.value.maxLat == raw[1].value
              && r.value.minLon == raw[2].value
              && r.value.maxLon == raw[3].value
    ensures r.Some? ==>
              && r.value.centerLat == location.value.latitude
              && r.value.centerLon == location.value.longitude
              && r.value.name == location.value.address
  {
    match location
    case None => None
    case Some(loc) =>
      match detailed
      // `detailed_location.raw` on None raises AttributeError
      case None => None
      case Some(d) =>
        match d.boundingBox
        // a missing key raises KeyError
        case None => None
        case Some(raw) =>
          // an empty array raises ValueError, a short one IndexError, a
          // non-numeric entry ValueError from float(): all end in None
          if raw == [] || !Readable(raw) then None
          else Some(BBox(raw[0].value, raw[1].value, raw[2].value, raw[3].value,
                         loc.latitude, loc.longitude, loc.address))
  }

  /** `get_bounding_box(city)`. */
  function GetBoundingBox(geo: Nominatim, city: string): (r: Option<BBox>)
    ensures geo.plain(city).None? ==> r.None?
    ensures r.Some? ==> r.value.name == geo.plain(city).value.address
  {
    BoundingBoxFrom(geo.plain(city), geo.detailed(city))
  }

  /** A GeoJSON geometry object: its `type` member and its `coordinates`,
      each position a list of numbers. */
  datatype Polygon = Polygon(kind: string, coordinates: seq<seq<seq<real>>>)

  /** A linear ring in the sense of section 3.1.6 of RFC 7946: four or more
      positions of at least two numbers each, the first equal to the last. */
  predicate IsLinearRing(ring: seq<seq<real>>) {
    && |ring| >= 4
    && (forall i :: 0 <= i < |ring| ==> |ring[i]| >= 2)
    && ring[0] == ring[|ring| - 1]
  }

  /** `bbox_to_geojson(bbox)`. */
  function BboxToGeoJson(b: BBox): (g: Polygon)
    ensures g.kind == "Polygon"
    ensures |g.coordinates| == 1
    ensures |g.coordinates[0]| == 5 && IsLinearRing(g.coordinates[0])
    ensures forall i :: 0 <= i < 5 ==>
              |g.coordinates[0][i]| == 2
              && (g.coordinates[0][i][0] == b.minLon || g.coordinates[0][i][0] == b.maxLon)
              && (g.coordinates[0][i][1] == b.minLat || g.coordinates[0][i][1] == b.maxLat)
  {
    Polygon("Polygon", [[
      [b.minLon, b.minLat],
      [b.maxLon, b.minLat],
      [b.maxLon, b.maxLat],
      [b.minLon, b.maxLat],
      [b.minLon, b.minLat]
    ]])
  }

  /** Twice the signed area of a ring by the shoelace formula over its
      consecutive positions (longitude as x, latitude as y); positive for a
      counterclockwise ring. */
  function TwiceSignedArea(ring: seq<seq<real>>): real
    requires forall i :: 0 <= i < |ring| ==> |ring[i]| >= 2
  {
    if |ring| < 2 then 0.0
    else ring[0][0] * ring[1][1] - ring[1][0] * ring[0][1] + TwiceSignedArea(ring[1..])
  }

  /** The ring's signed area is the box's area, so for a box whose minimum
      lies below its maximum on both axes the exterior ring is
      counterclockwise, as section 3.1.6 of RFC 7946 asks. */
  lemma CounterClockwise(b: BBox)
    ensures TwiceSignedArea(BboxToGeoJson(b).coordinates[0])
              == 2.0 * (b.maxLon - b.minLon) * (b.maxLat - b.minLat)
    ensures b.minLon < b.maxLon && b.minLat < b.maxLat ==>
              TwiceSignedArea(BboxToGeoJson(b).coordinates[0]) > 0.0
  {
    var ring := BboxToGeoJson(b).coordinates[0];
    var x0, x1, y0, y1 := b.minLon, b.maxLon, b.minLat, b.maxLat;
    assert ring[4..][1..] == [];
    assert TwiceSignedArea(ring[4..]) == 0.0;
    assert ring[3..][1..] == ring[4..];
    assert TwiceSignedArea(ring[3..]) == x0 * y0 - x0 * y1;
    assert ring[2..][1..] == ring[3..];
    assert TwiceSignedArea(ring[2..]) == (x1 * y1 - x0 * y1) + (x0 * y0 - x0 * y1);
    assert ring[1..][1..] == ring[2..];
    assert TwiceSignedArea(ring[1..]) == (x1 * y1 - x1 * y0) + (x1 * y1 - x0 * y1) + (x0 * y0 - x0 * y1);
    assert TwiceSignedArea(ring)
      == (x0 * y0 - x1 * y0) + (x1 * y1 - x1 * y0) + (x1 * y1 - x0 * y1) + (x0 * y0 - x0 * y1);
    assert 2.0 * (x1 - x0) * (y1 - y0) == 2.0 * (x1 * y1 - x1 * y0 - x0 * y1 + x0 * y0);
    if x0 < x1 && y0 < y1 {
      assert (x1 - x0) * (y1 - y0) > 0.0;
    }
  }

  /** Smallest longitude (or, with `axis` 1, latitude) among the positions. */
  function Least(ring: seq<seq<real>>, axis: nat): (r: real)
    requires ring != [] && axis < 2
    requires forall i :: 0 <= i < |ring| ==> |ring[i]| >= 2
    ensures forall i :: 0 <= i < |ring| ==> r <= ring[i][axis]
    ensures exists i :: 0 <= i < |ring| && r == ring[i][axis]
  {
    if |ring| == 1 then ring[0][axis]
    else
      var rest := Least(ring[1..], axis);
      if ring[0][axis] <= rest then ring[0][axis] else rest
  }

  /** Largest longitude (or, with `axis` 1, latitude) among the positions. */
  function Greatest(ring: seq<seq<real>>, axis: nat): (r: real)
    requires ring != [] && axis < 2
    requires forall i :: 0 <= i < |ring| ==> |ring[i]| >= 2
    ensures forall i :: 0 <= i < |ring| ==> ring[i][axis] <= r
    ensures exists i :: 0 <= i < |ring| && r == ring[i][axis]
  {
    if |ring| == 1 then ring[0][axis]
    else
      var rest := Greatest(ring[1..], axis);
      if ring[0][axis] >= rest then ring[0][axis] else rest
  }

  /** The polygon encloses exactly the box: the extent of its ring gives the
      box's bounds back, longitudes in position 0 and latitudes in
      position 1 (section 3.1.1 of RFC 7946). */
  lemma RingExtent(b: BBox)
    requires b.minLon <= b.maxLon && b.minLat <= b.maxLat
    ensures Least(BboxToGeoJson(b).coordinates[0], 0) == b.minLon
    ensures Greatest(BboxToGeoJson(b).coordinates[0], 0) == b.maxLon
    ensures Least(BboxToGeoJson(b).coordinates[0], 1) == b.minLat
    ensures Greatest(BboxToGeoJson(b).coordinates[0], 1) == b.maxLat
  {
    var ring := BboxToGeoJson(b).coordinates[0];
    assert ring[0] == [b.minLon, b.minLat] && ring[2] == [b.maxLon, b.maxLat];
  }

  /** Corners in the order the source writes them: (min_lon, min_lat),
      (max_lon, min_lat), (max_lon, max_lat), (min_lon, max_lat), then the
      first again; each read from the Nominatim array, whose entries 0 to 3
      are south, north, west and east. */
  lemma RingFromNominatim(location: Option<Place>, detailed: Option<Place>)
    requires BoundingBoxFrom(location, detailed).Some?
    ensures
      var raw := detailed.value.boundingBox.value;
      var ring := BboxToGeoJson(BoundingBoxFrom(location, detailed).value).coordinates[0];
      && ring[0] == [raw[2].value, raw[0].value]
      && ring[1] == [raw[3].value, raw[0].value]
      && ring[2] == [raw[3].value, raw[1].value]
      && ring[3] == [raw[2].value, raw[1].value]
      && ring[4] == ring[0]
  {
  }
}

=== FILE: geollm_agent.dfy ===
/** `GeoLLMAgent` of agents/geollm_agent.py: the keyword fallback that reads
    a place and dataset names out of a request, the clarification rules, the
    reply text, and the geocoded response. The LLM chain itself is an oracle:
    `Some(extraction)` when it answers, `None` when it raises. */
module GeoLlm {
  import opened Util
  import opened Text
  import Geocoding

  /** `GeoExtraction`: the place named in a request and the dataset names. */
  datatype Extraction = Extraction(city: string, dataTypes: seq<string>)

  /** `GeoResponse`. */
  datatype GeoResponse = GeoResponse(
    city: string,
    aoi: Geocoding.BBox,
    dataTypes: seq<string>,
    confidence: real)

  /** `keyword_mapping`, in its insertion order. */
  const KeywordMapping: seq<(string, seq<string>)> := [
    ("land_cover", ["land cover", "land use", "lulc", "nlcd", "landcover"]),
    ("tree_cover", ["tree cover", "tree canopy", "canopy", "forest", "trees"]),
    ("ndvi", ["ndvi", "vegetation", "greenness", "vegetation index"]),
    ("population", ["population", "pop", "people", "demographic", "census"]),
    ("basemap", ["basemap", "satellite", "imagery", "map", "rgb", "true color", "aerial"])
  ]

  /** `list(keyword_mapping.keys())`. */
  const AllTypes: seq<string> := ["land_cover", "tree_cover", "ndvi", "population", "basemap"]

  /** Position of a dataset name in `AllTypes` (5 for any other string). */
  function Rank(t: string): nat {
    if t == "land_cover" then 0
    else if t == "tree_cover" then 1
    else if t == "ndvi" then 2
    else if t == "population" then 3
    else if t == "basemap" then 4
    else 5
  }

  /** `any(keyword in prompt_lower for keyword in keywords)`. */
  predicate Matches(promptLower: string, keywords: seq<string>) {
    exists k :: k in keywords && IsSubstring(k, promptLower)
  }

  /** The names appended by the first `n` rounds of the loop over
      `keyword_mapping`. */
  function MatchedTypes(promptLower: string, n: nat): seq<string>
    requires n <= |KeywordMapping|
  {
    if n == 0 then []
    else
      MatchedTypes(promptLower, n - 1)
        + (if Matches(promptLower, KeywordMapping[n - 1].1) then [KeywordMapping[n - 1].0] else [])
  }

  /** The dataset names the fallback returns for a lower-cased prompt. */
  function FallbackTypes(promptLower: string): seq<string> {
    var matched := MatchedTypes(promptLower, |KeywordMapping|);
    if matched == [] then AllTypes else matched
  }

  /** `words[-3:]`: the last three words, or all of them when fewer. */
  function LastWords(words: seq<string>, k: nat): (r: seq<string>)
    ensures |r| == if |words| < k then |words| else k
    ensures r == words[|words| - |r|..]
  {
    if |words| <= k then words else words[|words| - k..]
  }

  /** `" ".join(prompt.split()[-3:])`. */
  function Location(prompt: string): string {
    Join(" ", LastWords(Words(prompt), 3))
  }

  /** The fallback location consists of exactly the last min(3, n) words of
      the prompt. */
  lemma LocationWords(prompt: string)
    ensures Words(Location(prompt)) == LastWords(Words(prompt), 3)
    ensures |Words(Location(prompt))| == if |Words(prompt)| < 3 then |Words(prompt)| else 3
  {
    var last := LastWords(Words(prompt), 3);
    assert forall i :: 0 <= i < |last| ==> last[i] == Words(prompt)[|Words(prompt)| - |last| + i];
    WordsOfJoin(last);
  }

  /** A name is among the first `n` matched types exactly when it is one of
      the first `n` names of the mapping and one of its keywords occurs in
      the prompt; the matched names keep the mapping's order, so none is
      repeated. */
  lemma {:induction false} MatchedTypesSpec(promptLower: string, n: nat)
    requires n <= |KeywordMapping|
    ensures forall t :: t in MatchedTypes(promptLower, n) <==>
              exists i :: 0 <= i < n && KeywordMapping[i].0 == t && Matches(promptLower, KeywordMapping[i].1)
    ensures forall i :: 0 <= i < |MatchedTypes(promptLower, n)| ==> Rank(MatchedTypes(promptLower, n)[i]) < n
    ensures forall i, j :: 0 <= i < j < |MatchedTypes(promptLower, n)| ==>
              Rank(MatchedTypes(promptLower, n)[i]) < Rank(MatchedTypes(promptLower, n)[j])
  {
    if n > 0 {
      MatchedTypesSpec(promptLower, n - 1);
      assert Rank(KeywordMapping[n - 1].0) == n - 1;
    }
  }

  /** The fallback's dataset names: a name is returned iff one of its
      keywords occurs in the lower-cased prompt, or no keyword of any name
      does and then all five are returned; the result is never empty, follows
      the order land_cover, tree_cover, ndvi, population, basemap, and has no
      duplicates. */
  lemma FallbackTypesSpec(promptLower: string)
    ensures FallbackTypes(promptLower) != []
    ensures forall t :: t in FallbackTypes(promptLower) <==>
              exists i :: 0 <= i < |KeywordMapping| && KeywordMapping[i].0 == t
                && (Matches(promptLower, KeywordMapping[i].1)
                    || forall j :: 0 <= j < |KeywordMapping| ==> !Matches(promptLower, KeywordMapping[j].1))
    ensures forall i, j :: 0 <= i < j < |FallbackTypes(promptLower)| ==>
              Rank(FallbackTypes(promptLower)[i]) < Rank(FallbackTypes(promptLower)[j])
  {
    MatchedTypesSpec(promptLower, |KeywordMapping|);
    var matched := MatchedTypes(promptLower, |KeywordMapping|);
    if matched == [] {
      forall j | 0 <= j < |KeywordMapping|
        ensures !Matches(promptLower, KeywordMapping[j].1)
      {
        assert KeywordMapping[j].0 !in matched;
      }
      assert forall i :: 0 <= i < 5 ==> AllTypes[i] == KeywordMapping[i].0 && Rank(AllTypes[i]) == i;
    } else {
      var t0 := matched[0];
      assert t0 in matched;
    }
  }

  /** Matching ignores ASCII case: a keyword written in lower case is found
      wherever the prompt spells it in any mix of cases. */
  lemma KeywordFoundInAnyCase(keyword: string, prompt: string, at: nat)
    requires Lower(keyword) == keyword
    requires at + |keyword| <= |prompt|
    requires Lower(prompt[at..at + |keyword|]) == keyword
    ensures IsSubstring(keyword, Lower(prompt))
  {
    var lower := Lower(prompt);
    assert lower[at..at + |keyword|] == Lower(prompt[at..at + |keyword|]);
    assert OccursAt(keyword, lower, at);
    IsSubstringAt(keyword, lower);
  }

  /** A prompt and its lower-cased form select the same dataset names. */
  lemma FallbackIgnoresCase(prompt: string)
    ensures FallbackTypes(Lower(Lower(prompt))) == FallbackTypes(Lower(prompt))
  {
    LowerIdempotent(prompt);
  }

  /** Every name the fallback returns is one of the mapping's names. */
  lemma FallbackTypesKnown(promptLower: string)
    ensures forall t :: t in FallbackTypes(promptLower) ==> t in AllTypes
  {
    MatchedTypesSpec(promptLower, |KeywordMapping|);
    assert forall i :: 0 <= i < 5 ==> AllTypes[i] == KeywordMapping[i].0;
  }

  /** The loop of `fallback_parsing` over `keyword_mapping`. */
  method MatchKeywords(promptLower: string) returns (dataTypes: seq<string>)
    ensures dataTypes == MatchedTypes(promptLower, |KeywordMapping|)
  {
    dataTypes := [];
    var i := 0;
    while i < |KeywordMapping|
      invariant 0 <= i <= |KeywordMapping|
      invariant dataTypes == MatchedTypes(promptLower, i)
    {
      var (dataType, keywords) := KeywordMapping[i];
      if Matches(promptLower, keywords) {
        dataTypes := dataTypes + [dataType];
      }
      i := i + 1;
    }
  }

  /** `fallback_parsing(prompt)`. */
  method FallbackParsing(prompt: string) returns (e: Extraction)
    ensures e.city == Location(prompt)
    ensures Words(e.city) == LastWords(Words(prompt), 3)
    ensures e.dataTypes == FallbackTypes(Lower(prompt))
    ensures e.dataTypes != []
    ensures forall t :: t in e.dataTypes ==> t in AllTypes
  {
    var promptLower := Lower(prompt);
    var location := Join(" ", LastWords(Words(prompt), 3));
    var dataTypes := MatchKeywords(promptLower);
    if dataTypes == [] {
      dataTypes := AllTypes;
    }
    e := Extraction(location, dataTypes);
    LocationWords(prompt);
    FallbackTypesSpec(promptLower);
    FallbackTypesKnown(promptLower);
  }

  /** `parse_prompt_with_llm(prompt)`: the LLM's answer, or the fallback
      when the chain raises. */
  method ParsePromptWithLlm(prompt: string, llm: Option<Extraction>) returns (e: Extraction)
    ensures llm.Some? ==> e == llm.value
    ensures llm.None? ==> e.city == Location(prompt) && e.dataTypes == FallbackTypes(Lower(prompt))
  {
    if llm.Some? {
      e := llm.value;
    } else {
      e := FallbackParsing(prompt);
    }
  }

  const LocationRequest := "Please specify which city or region you need data for."
  const ScopeQuestion := "Would you like all data types or specific ones?"

  /** `check_clarification_needed(extraction)`. */
  method CheckClarificationNeeded(e: Extraction) returns (clarifications: seq<string>)
    ensures LocationRequest in clarifications <==> e.city == "" || |Words(e.city)| < 2
    ensures ScopeQuestion in clarifications <==> |e.dataTypes| == 4
    ensures |clarifications| <= 2
    ensures forall i :: 0 <= i < |clarifications| ==>
              clarifications[i] == LocationRequest || clarifications[i] == ScopeQuestion
    ensures forall i :: 0 <= i < |clarifications| && clarifications[i] == LocationRequest ==> i == 0
    ensures forall i, j :: 0 <= i < j < |clarifications| ==> clarifications[i] != clarifications[j]
  {
    clarifications := [];
    if e.city == "" || |Words(e.city)| < 2 {
      clarifications := clarifications + [LocationRequest];
    }
    if |e.dataTypes| == 4 {
      clarifications := clarifications + [ScopeQuestion];
    }
  }

  /** With the fallback, the location question is asked exactly when the
      prompt has fewer than two words. */
  lemma FallbackAsksForLocation(prompt: string)
    ensures (Location(prompt) == "" || |Words(Location(prompt))| < 2) <==> |Words(prompt)| < 2
  {
    LocationWords(prompt);
  }

  const Opening := "I'll fetch "
  const Middle := " data for "
  const Closing := ". Processing your request now..."

  /** The reply text built in `conversational_retrieval`. */
  function ResponseText(e: Extraction): string {
    Opening + Join(", ", e.dataTypes) + Middle + e.city + Closing
  }

  /** A dataset name as the reply lists it: non-empty, with no comma and no
      space. */
  predicate IsName(t: string) {
    t != [] && forall i :: 0 <= i < |t| ==> t[i] != ',' && t[i] != ' '
  }

  /** Length of the run of characters other than comma and space that
      starts `s`. */
  function NameLength(s: string): (n: nat)
    ensures n <= |s|
  {
    if s == [] || s[0] == ',' || s[0] == ' ' then 0 else 1 + NameLength(s[1..])
  }

  /** Reads `name, name, ..., name data for ` and returns the names and what
      follows. */
  function ParseNames(s: string): Option<(seq<string>, string)>
    decreases |s|
  {
    var n := NameLength(s);
    if n == 0 then None
    else
      var rest := s[n..];
      if Middle <= rest then Some(([s[..n]], rest[|Middle|..]))
      else if ", " <= rest then
        match ParseNames(rest[2..])
        case None => None
        case Some(p) => Some(([s[..n]] + p.0, p.1))
      else None
  }

  /** Reads a reply text back into the extraction it was built from. */
  function ParseResponse(text: string): Option<Extraction> {
    if !(Opening <= text) then None
    else
      match ParseNames(text[|Opening|..])
      case None => None
      case Some(p) =>
        var rest := p.1;
        if |rest| >= |Closing| && rest[|rest| - |Closing|..] == Closing
        then Some(Extraction(rest[..|rest| - |Closing|], p.0))
        else None
  }

  lemma {:induction false} NameLengthOfNameThen(t: string, rest: string)
    requires forall i :: 0 <= i < |t| ==> t[i] != ',' && t[i] != ' '
    requires rest != [] && (rest[0] == ',' || rest[0] == ' ')
    ensures NameLength(t + rest) == |t|
    decreases |t|
  {
    if t != [] {
      assert (t + rest)[1..] == t[1..] + rest;
      NameLengthOfNameThen(t[1..], rest);
    }
  }

  lemma ParseNamesLast(t: string, tail: string)
    requires IsName(t)
    ensures ParseNames(t + Middle + tail) == Some(([t], tail))
  {
    var s := t + Middle + tail;
    assert s == t + (Middle + tail);
    NameLengthOfNameThen(t, Middle + tail);
    assert s[..|t|] == t && s[|t|..] == Middle + tail;
    assert (Middle + tail)[|Middle|..] == tail;
  }

  lemma ParseNamesNext(t: string, more: string)
    requires IsName(t)
    ensures ParseNames(t + ", " + more) ==
              match ParseNames(more)
              case None => None
              case Some(p) => Some(([t] + p.0, p.1))
  {
    var s := t + ", " + more;
    assert s == t + (", " + more);
    NameLengthOfNameThen(t, ", " + more);
    assert s[..|t|] == t && s[|t|..] == ", " + more;
    assert !(Middle <= ", " + more) by { assert (", " + more)[0] == ','; }
    assert (", " + more)[2..] == more;
  }

  lemma {:induction false} ParseNamesOfJoin(ts: seq<string>, tail: string)
    requires ts != [] && forall i :: 0 <= i < |ts| ==> IsName(ts[i])
    ensures ParseNames(Join(", ", ts) + Middle + tail) == Some((ts, tail))
    decreases |ts|
  {
    if |ts| == 1 {
      ParseNamesLast(ts[0], tail);
      assert Join(", ", ts) == ts[0] && [ts[0]] == ts;
    } else {
      var more := Join(", ", ts[1..]) + Middle + tail;
      assert Join(", ", ts) + Middle + tail == ts[0] + ", " + more;
      ParseNamesNext(ts[0], more);
      ParseNamesOfJoin(ts[1..], tail);
      assert [ts[0]] + ts[1..] == ts;
    }
  }

  /** The reply text lists the dataset names and the place unambiguously:
      reading it back gives the extraction it was built from, for any
      non-empty list of names. */
  lemma ResponseRoundTrip(e: Extraction)
    requires e.dataTypes != [] && forall i :: 0 <= i < |e.dataTypes| ==> IsName(e.dataTypes[i])
    ensures ParseResponse(ResponseText(e)) == Some(e)
  {
    var text := ResponseText(e);
    var rest := e.city + Closing;
    assert text == Opening + (Join(", ", e.dataTypes) + Middle + rest);
    assert text[|Opening|..] == Join(", ", e.dataTypes) + Middle + rest;
    ParseNamesOfJoin(e.dataTypes, rest);
    assert rest[|rest| - |Closing|..] == Closing && rest[..|rest| - |Closing|] == e.city;
  }

  /** The dataset names of the keyword mapping are list names. */
  lemma MappingNames()
    ensures forall k :: 0 <= k < |AllTypes| ==> IsName(AllTypes[k])
  {
    assert IsName("land_cover") && IsName("tree_cover") && IsName("ndvi");
    assert IsName("population") && IsName("basemap");
  }

  /** The fallback lists at least one name, and each is a list name. */
  lemma FallbackNames(promptLower: string)
    ensures FallbackTypes(promptLower) != []
    ensures forall i :: 0 <= i < |FallbackTypes(promptLower)| ==> IsName(FallbackTypes(promptLower)[i])
  {
    var types := FallbackTypes(promptLower);
    FallbackTypesSpec(promptLower);
    FallbackTypesKnown(promptLower);
    MappingNames();
    forall i | 0 <= i < |types| ensures IsName(types[i]) {
      assert types[i] in AllTypes;
    }
  }

  /** Every reply the keyword fallback leads to reads back to its
      extraction. */
  lemma FallbackResponseRoundTrip(prompt: string)
    ensures var e := Extraction(Location(prompt), FallbackTypes(Lower(prompt)));
            ParseResponse(ResponseText(e)) == Some(e)
  {
    FallbackNames(Lower(prompt));
    ResponseRoundTrip(Extraction(Location(prompt), FallbackTypes(Lower(prompt))));
  }

  /** What `conversational_retrieval` returns on success. */
  datatype Reply = Reply(response: string, structured: Extraction, clarifications: seq<string>)

  /** `conversational_retrieval(prompt)`. */
  method ConversationalRetrieval(prompt: string, llm: Option<Extraction>) returns (reply: Reply)
    ensures llm.Some? ==> reply.structured == llm.value
    ensures llm.None? ==>
              reply.structured.city == Location(prompt)
              && reply.structured.dataTypes == FallbackTypes(Lower(prompt))
    ensures reply.response == ResponseText(reply.structured)
    ensures (&& reply.structured.dataTypes != []
             && forall i :: 0 <= i < |reply.structured.dataTypes| ==> IsName(reply.structured.dataTypes[i]))
            ==> ParseResponse(reply.response) == Some(reply.structured)
    ensures llm.None? ==> ParseResponse(reply.response) == Some(reply.structured)
    ensures LocationRequest in reply.clarifications <==>
              reply.structured.city == "" || |Words(reply.structured.city)| < 2
    ensures ScopeQuestion in reply.clarifications <==> |reply.structured.dataTypes| == 4
    ensures |reply.clarifications| <= 2
    ensures forall i :: 0 <= i < |reply.clarifications| ==>
              reply.clarifications[i] == LocationRequest || reply.clarifications[i] == ScopeQuestion
    ensures forall i :: 0 <= i < |reply.clarifications| && reply.clarifications[i] == LocationRequest ==> i == 0
    ensures forall i, j :: 0 <= i < j < |reply.clarifications| ==> reply.clarifications[i] != reply.clarifications[j]
  {
    var extraction := ParsePromptWithLlm(prompt, llm);
    var responseText := ResponseText(extraction);
    var clarifications := CheckClarificationNeeded(extraction);
    reply := Reply(responseText, extraction, clarifications);
    if llm.None? {
      FallbackResponseRoundTrip(prompt);
    } else if extraction.dataTypes != [] && forall i :: 0 <= i < |extraction.dataTypes| ==> IsName(extraction.dataTypes[i]) {
      ResponseRoundTrip(extraction);
    }
  }

  /** `process_request(request)`: the geocoded place of the extraction. */
  method ProcessRequest(prompt: string, llm: Option<Extraction>, geo: Geocoding.Nominatim)
    returns (r: Result<GeoResponse>)
    ensures var city := if llm.Some? then llm.value.city else Location(prompt);
            && (r.Failure? <==> Geocoding.GetBoundingBox(geo, city).None?)
            && (r.Failure? ==> r.error == "Could not geocode location: " + city)
            && (r.Success? ==>
                  && r.value.aoi == Geocoding.GetBoundingBox(geo, city).value
                  && r.value.city == geo.plain(city).value.address
                  && r.value.confidence == 0.95)
    ensures r.Success? ==>
              r.value.dataTypes == if llm.Some? then llm.value.dataTypes else FallbackTypes(Lower(prompt))
  {
    var extraction := ParsePromptWithLlm(prompt, llm);
    var bbox := Geocoding.GetBoundingBox(geo, extraction.city);
    if bbox.None? {
      r := Failure("Could not geocode location: " + extraction.city);
    } else {
      r := Success(GeoResponse(bbox.value.name, bbox.value, extraction.dataTypes, 0.95));
    }
  }
}

=== FILE: json.dfy ===
/** The Python values that flow through the agents: the records built by the
    validator, the manifest, and the input of `make_json_safe`. */
module Json {

  /** A Python float: a finite value or NaN (infinities are not modelled). */
  datatype Float = Finite(r: real) | NaN

  /** `a == b` on floats: NaN is equal to nothing, not even to itself. */
  predicate FloatEq(a: Float, b: Float) {
    a.Finite? && b.Finite? && a.r == b.r
  }

  /** `bool(f)`: zero is falsy, NaN is truthy. */
  predicate FloatTruthy(f: Float) {
    f.NaN? || f.r != 0.0
  }

  /** A Python value. `NpScalar` is a numpy scalar (`np.generic`) holding the
      plain value `.item()` returns; `Object` is any other object (a tuple, a
      rasterio CRS or bounds object, ...) together with the text `str()`
      renders for it. Dictionaries are keyed by strings; their insertion
      order is not modelled. */
  datatype Value =
    | Null
    | Bool(b: bool)
    | Int(i: int)
    | Num(f: Float)
    | Str(s: string)
    | List(items: seq<Value>)
    | Dict(fields: map<string, Value>)
    | NpScalar(item: Value)
    | Object(text: string)

  /** `None`, `bool`, `int`, `float` or `str`. */
  predicate IsPrimitive(v: Value) {
    v.Null? || v.Bool? || v.Int? || v.Num? || v.Str?
  }

  /** Python truthiness, `bool(v)`. */
  predicate Truthy(v: Value) {
    match v
    case Null => false
    case Bool(b) => b
    case Int(i) => i != 0
    case Num(f) => FloatTruthy(f)
    case Str(s) => s != []
    case List(xs) => xs != []
    case Dict(m) => m != map[]
    case NpScalar(x) => Truthy(x)
    case Object(_) => true
  }

  /** `m.get(key, default)`. */
  function Get(m: map<string, Value>, key: string, default: Value): Value {
    if key in m then m[key] else default
  }

  /** Contains only what the standard `json` module serialises: no numpy
      scalar and no other object, at any depth. */
  predicate IsSafe(v: Value) {
    match v
    case List(xs) => forall i :: 0 <= i < |xs| ==> IsSafe(xs[i])
    case Dict(m) => forall k :: k in m ==> IsSafe(m[k])
    case NpScalar(_) => false
    case Object(_) => false
    case _ => true
  }

  /** Every numpy scalar holds a plain `bool`, `int`, `float` or `str`. This
      holds for every numpy scalar this program creates (the `np.bool_` of
      `np.any` in `validate_raster`); it does not hold for numpy scalars in
      general, whose `.item()` may be a date, a complex number or bytes. */
  predicate WellFormed(v: Value) {
    match v
    case List(xs) => forall i :: 0 <= i < |xs| ==> WellFormed(xs[i])
    case Dict(m) => forall k :: k in m ==> WellFormed(m[k])
    case NpScalar(x) => x.Bool? || x.Int? || x.Num? || x.Str?
    case _ => true
  }
}

=== FILE: spatial.dfy ===
/** The one local rule of utils/spatial_processing.py: the nodata value
    `reproject_raster` writes into its output. */
module Spatial {
  import opened Util
  import opened Json
  import Validation

  /** `src.nodata or 255`: a missing or zero nodata value becomes 255. */
  function ReprojectedNodata(nodata: Option<Float>): (r: Float)
    ensures FloatTruthy(r)
    ensures nodata.Some? && nodata.value != Finite(0.0) ==> r == nodata.value
    ensures nodata.None? || nodata.value == Finite(0.0) ==> r == Finite(255.0)
  {
    if nodata.Some? && FloatTruthy(nodata.value) then nodata.value else Finite(255.0)
  }

  /** A reprojected file always carries a truthy nodata value, so the
      validator's `has_nodata` check really looks at the pixels: it is true
      exactly when some pixel equals that value. */
  lemma ReprojectedNodataIsChecked(pixels: seq<Float>, nodata: Option<Float>)
    ensures var out := ReprojectedNodata(nodata);
            Truthy(Validation.NodataFlag(pixels, Some(out))) <==>
              exists i :: 0 <= i < |pixels| && FloatEq(pixels[i], out)
  {
  }
}

=== FILE: text.dfy ===
/** String primitives used by the agents: Python's `str.isspace`, `str.split()`
    with no separator, `str.join`, the `in` operator on strings, `str.lower()`
    on ASCII letters, and decimal rendering of integers. */
module Text {

  /** Python's `str.isspace` for one character: the ASCII separators and
      controls 9-13 and 28-31, and the Unicode space characters. */
  predicate IsSpace(c: char) {
    var k := c as int;
    || k == 32 || 9 <= k <= 13 || 28 <= k <= 31
    || k == 0x85 || k == 0xA0 || k == 0x1680 || 0x2000 <= k <= 0x200A
    || k == 0x2028 || k == 0x2029 || k == 0x202F || k == 0x205F || k == 0x3000
  }

  /** A word produced by `str.split()`: non-empty and free of white space. */
  predicate IsWord(w: string) {
    w != [] && forall i :: 0 <= i < |w| ==> !IsSpace(w[i])
  }

  /** Length of the run of non-space characters that starts `s`. */
  function WordLength(s: string): (n: nat)
    ensures n <= |s|
    ensures forall i :: 0 <= i < n ==> !IsSpace(s[i])
    ensures n < |s| ==> IsSpace(s[n])
  {
    if s == [] || IsSpace(s[0]) then 0 else 1 + WordLength(s[1..])
  }

  /** `s.split()`: the maximal runs of non-space characters, in order. */
  function Words(s: string): (ws: seq<string>)
    ensures forall i :: 0 <= i < |ws| ==> IsWord(ws[i])
    decreases |s|
  {
    if s == [] then []
    else if IsSpace(s[0]) then Words(s[1..])
    else
      var n := WordLength(s);
      [s[..n]] + Words(s[n..])
  }

  /** `sep.join(xs)`. */
  function Join(sep: string, xs: seq<string>): string {
    if xs == [] then ""
    else if |xs| == 1 then xs[0]
    else xs[0] + sep + Join(sep, xs[1..])
  }

  /** A word followed by a space (or by nothing) is split off as one word. */
  lemma {:induction false} WordsOfWordThen(w: string, rest: string)
    requires IsWord(w)
    requires rest == [] || IsSpace(rest[0])
    ensures Words(w + rest) == [w] + Words(rest)
  {
    var s := w + rest;
    WordLengthOfWordThen(w, rest);
    assert s[..|w|] == w && s[|w|..] == rest;
  }

  lemma {:induction false} WordLengthOfWordThen(w: string, rest: string)
    requires forall i :: 0 <= i < |w| ==> !IsSpace(w[i])
    requires rest == [] || IsSpace(rest[0])
    ensures WordLength(w + rest) == |w|
    decreases |w|
  {
    if w != [] {
      assert (w + rest)[1..] == w[1..] + rest;
      WordLengthOfWordThen(w[1..], rest);
    }
  }

  /** Splitting words joined by single spaces gives the words back. */
  lemma {:induction false} WordsOfJoin(ws: seq<string>)
    requires forall i :: 0 <= i < |ws| ==> IsWord(ws[i])
    ensures Words(Join(" ", ws)) == ws
  {
    if ws == [] {
    } else if |ws| == 1 {
      WordsOfWordThen(ws[0], "");
      assert ws[0] + "" == ws[0];
    } else {
      var tail := Join(" ", ws[1..]);
      assert Join(" ", ws) == ws[0] + (" " + tail);
      WordsOfWordThen(ws[0], " " + tail);
      assert (" " + tail)[1..] == tail;
      WordsOfJoin(ws[1..]);
      assert ws == [ws[0]] + ws[1..];
    }
  }

  /** Python's `needle in hay` for strings. */
  predicate IsSubstring(needle: string, hay: string)
    decreases |hay|
  {
    needle <= hay || (hay != [] && IsSubstring(needle, hay[1..]))
  }

  /** `needle` occurs in `hay` starting at index `i`. */
  predicate OccursAt(needle: string, hay: string, i: int) {
    0 <= i <= |hay| - |needle| && hay[i..i + |needle|] == needle
  }

  /** `IsSubstring` agrees with the positional definition of an occurrence. */
  lemma {:induction false} IsSubstringAt(needle: string, hay: string)
    ensures IsSubstring(needle, hay) <==> exists i :: OccursAt(needle, hay, i)
    decreases |hay|
  {
    if needle <= hay {
      assert OccursAt(needle, hay, 0);
    } else if hay == [] {
    } else {
      IsSubstringAt(needle, hay[1..]);
      if exists i :: OccursAt(needle, hay, i) {
        var i :| OccursAt(needle, hay, i);
        assert i != 0;
        assert OccursAt(needle, hay[1..], i - 1);
      }
      if IsSubstring(needle, hay[1..]) {
        var j :| OccursAt(needle, hay[1..], j);
        assert OccursAt(needle, hay, j + 1);
      }
    }
  }

  /** `c.lower()` for a single character, on the ASCII letters only. */
  function LowerChar(c: char): char {
    if 'A' <= c <= 'Z' then (c as int + 32) as char else c
  }

  /** `s.lower()` restricted to ASCII case mapping. */
  function Lower(s: string): (r: string)
    ensures |r| == |s|
    ensures forall i :: 0 <= i < |s| ==> r[i] == LowerChar(s[i])
  {
    if s == [] then [] else [LowerChar(s[0])] + Lower(s[1..])
  }

  /** Lowering an already lowered string changes nothing. */
  lemma LowerIdempotent(s: string)
    ensures Lower(Lower(s)) == Lower(s)
  {
    var l := Lower(s);
    assert forall i :: 0 <= i < |l| ==> Lower(l)[i] == l[i];
  }

  predicate IsDigit(c: char) {
    '0' <= c <= '9'
  }

  function DigitChar(d: nat): (c: char)
    requires d < 10
    ensures IsDigit(c) && c as int - '0' as int == d
  {
    ('0' as int + d) as char
  }

  function Pow10(k: nat): (p: nat)
    ensures p >= 1
  {
    if k == 0 then 1 else 10 * Pow10(k - 1)
  }

  /** The numeric value of a string of decimal digits. */
  function DigitsValue(s: string): nat
    requires forall i :: 0 <= i < |s| ==> IsDigit(s[i])
  {
    if s == [] then 0
    else
      var last := s[|s| - 1];
      assert IsDigit(last);
      DigitsValue(s[..|s| - 1]) * 10 + (last as int - '0' as int)
  }

  /** The last `width` decimal digits of `n`, zero-padded to `width`
      characters, as `strftime` renders `%Y` (width 4) and `%m`, `%d`, `%H`,
      `%M`, `%S` (width 2). */
  function Padded(n: nat, width: nat): (r: string)
    ensures |r| == width
    ensures forall i :: 0 <= i < width ==> IsDigit(r[i])
  {
    if width == 0 then "" else Padded(n / 10, width - 1) + [DigitChar(n % 10)]
  }

  /** A number that fits in `width` digits is read back from its padded form. */
  lemma {:induction false} PaddedValue(n: nat, width: nat)
    requires n < Pow10(width)
    ensures DigitsValue(Padded(n, width)) == n
  {
    if width > 0 {
      var s := Padded(n, width);
      assert s[..|s| - 1] == Padded(n / 10, width - 1);
      PaddedValue(n / 10, width - 1);
    }
  }

  /** `str(n)` for a non-negative integer: digits without leading zeros. */
  function Decimal(n: nat): (r: string)
    ensures r != [] && forall i :: 0 <= i < |r| ==> IsDigit(r[i])
  {
    if n < 10 then [DigitChar(n)] else Decimal(n / 10) + [DigitChar(n % 10)]
  }

  /** Reading `str(n)` back gives `n`. */
  lemma {:induction false} DecimalValue(n: nat)
    ensures DigitsValue(Decimal(n)) == n
  {
    var s := Decimal(n);
    if n < 10 {
      assert s[..|s| - 1] == [];
    } else {
      assert s[..|s| - 1] == Decimal(n / 10);
      DecimalValue(n / 10);
    }
  }

  /** `str(n)` for any integer (Python writes a leading minus sign). */
  function IntText(n: int): (r: string)
    ensures r != [] && (n < 0 <==> r[0] == '-')
  {
    if n < 0 then "-" + Decimal(-n) else Decimal(n)
  }
}

=== FILE: util.dfy ===
/** Failure-carrying wrappers shared by every module of the model. */
module Util {

  /** Python's `None` versus a present value. */
  datatype Option<+T> = None | Some(value: T)

  /** The outcome of an operation that either returns a value or raises an
      exception carrying a message. */
  datatype Result<+T> = Success(value: T) | Failure(error: string)
}

=== FILE: validation.dfy ===
/** `DataValidator` of utils/validation.py: the record `validate_raster`
    produces for one output file, and the job manifest `create_manifest`
    assembles. */
module Validation {
  import opened Util
  import opened Json

  /** What `src.read(1)` yields: the first band's pixels, with the values
      `float(np.nanmin(data))` and `float(np.nanmax(data))` computed from
      them (kept abstract: floating-point reductions are not modelled). */
  datatype Band = Band(pixels: seq<Float>, minValue: Float, maxValue: Float)

  /** An opened raster file as rasterio describes it. `crs` is `str(src.crs)`;
      `shape`, `bounds` and `resolution` are tuples, kept as the text `str()`
      gives for them; `band` is the read of band 1, which may raise. */
  datatype Raster = Raster(
    crs: string,
    shape: string,
    bounds: string,
    resolution: string,
    nodata: Option<Float>,
    dtype: string,
    bandCount: int,
    band: Result<Band>)

  /** The CRS used by every output of the pipeline. */
  const TargetCrs := "EPSG:5070"

  /** The keys of a record for a file that was opened and read. */
  const RecordKeys: set<string> := {
    "file_exists", "crs", "crs_match", "shape", "bounds", "resolution",
    "nodata", "dtype", "band_count", "min_value", "max_value", "has_nodata"
  }

  /** `True if not expected_crs else str(src.crs) == expected_crs`. */
  predicate CrsMatch(expectedCrs: Option<string>, crs: string) {
    match expectedCrs
    case None => true
    case Some(e) => e == "" || crs == e
  }

  /** The `has_nodata` entry: `np.any(data == src.nodata) if src.nodata else
      False`, a numpy boolean when the nodata value is truthy and the plain
      `False` otherwise. A nodata value of 0 is falsy, so it is never looked
      for; NaN is truthy but equal to no pixel. */
  function NodataFlag(pixels: seq<Float>, nodata: Option<Float>): (r: Value)
    ensures Truthy(r) <==>
              && nodata.Some?
              && nodata.value != Finite(0.0)
              && exists i :: 0 <= i < |pixels| && FloatEq(pixels[i], nodata.value)
    ensures WellFormed(r)
  {
    match nodata
    case None => Bool(false)
    case Some(x) =>
      if FloatTruthy(x)
      then NpScalar(Bool(exists i :: 0 <= i < |pixels| && FloatEq(pixels[i], x)))
      else Bool(false)
  }

  /** The record's entries taken from the file's metadata, before the
      update with the band statistics. */
  function Metadata(src: Raster, expectedCrs: Option<string>): (m: map<string, Value>)
    ensures m.Keys == RecordKeys - {"min_value", "max_value", "has_nodata"}
    ensures m["file_exists"] == Bool(true) && m["crs"] == Str(src.crs)
    ensures m["crs_match"] == Bool(CrsMatch(expectedCrs, src.crs))
    ensures m["shape"] == Object(src.shape) && m["bounds"] == Object(src.bounds)
    ensures m["resolution"] == Object(src.resolution)
    ensures m["nodata"] == (if src.nodata.Some? then Num(src.nodata.value) else Null)
    ensures m["dtype"] == Str(src.dtype) && m["band_count"] == Int(src.bandCount)
    ensures forall k :: k in m ==> WellFormed(m[k])
  {
    map[
      "file_exists" := Bool(true),
      "crs" := Str(src.crs),
      "crs_match" := Bool(CrsMatch(expectedCrs, src.crs)),
      "shape" := Object(src.shape),
      "bounds" := Object(src.bounds),
      "resolution" := Object(src.resolution),
      "nodata" := if src.nodata.Some? then Num(src.nodata.value) else Null,
      "dtype" := Str(src.dtype),
      "band_count" := Int(src.bandCount)
    ]
  }

  /** The entries the `.update(...)` call adds. */
  function Statistics(band: Band, nodata: Option<Float>): (u: map<string, Value>)
    ensures u.Keys == {"min_value", "max_value", "has_nodata"}
    ensures u["min_value"] == Num(band.minValue) && u["max_value"] == Num(band.maxValue)
    ensures u["has_nodata"] == NodataFlag(band.pixels, nodata)
    ensures forall k :: k in u ==> WellFormed(u[k])
  {
    map[
      "min_value" := Num(band.minValue),
      "max_value" := Num(band.maxValue),
      "has_nodata" := NodataFlag(band.pixels, nodata)
    ]
  }

  /** The file was opened and its first band read without an exception. */
  predicate Readable(file: Result<Raster>) {
    file.Success? && file.value.band.Success?
  }

  /** The message of the exception that ended validation. */
  function FailureMessage(file: Result<Raster>): string
    requires !Readable(file)
  {
    if file.Failure? then file.error else file.value.band.error
  }

  /** The record `validate_raster` returns for `file`: the metadata entries
      updated with the band statistics, or the soft-failure record. */
  function Record(file: Result<Raster>, expectedCrs: Option<string>): map<string, Value> {
    if Readable(file)
    then Metadata(file.value, expectedCrs) + Statistics(file.value.band.value, file.value.nodata)
    else map["file_exists" := Bool(false), "error" := Str(FailureMessage(file))]
  }

  /** A file that could not be opened or read yields exactly the two-entry
      failure record. */
  lemma RecordOfFailure(file: Result<Raster>, expectedCrs: Option<string>)
    requires !Readable(file)
    ensures Record(file, expectedCrs).Keys == {"file_exists", "error"}
    ensures Record(file, expectedCrs)["file_exists"] == Bool(false)
    ensures Record(file, expectedCrs)["error"] == Str(if file.Failure? then file.error else file.value.band.error)
    ensures Get(Record(file, expectedCrs), "crs_match", Bool(false)) == Bool(false)
  {
  }

  /** A readable file yields the twelve entries: the file's metadata, the
      CRS verdict, and the band statistics. */
  lemma RecordOfReadable(file: Result<Raster>, expectedCrs: Option<string>)
    requires Readable(file)
    ensures var record, src, band := Record(file, expectedCrs), file.value, file.value.band.value;
      && record.Keys == RecordKeys
      && record["file_exists"] == Bool(true)
      && record["crs"] == Str(src.crs)
      && record["crs_match"] == Bool(CrsMatch(expectedCrs, src.crs))
      && record["shape"] == Object(src.shape)
      && record["bounds"] == Object(src.bounds)
      && record["resolution"] == Object(src.resolution)
      && record["nodata"] == (if src.nodata.Some? then Num(src.nodata.value) else Null)
      && record["dtype"] == Str(src.dtype)
      && record["band_count"] == Int(src.bandCount)
      && record["min_value"] == Num(band.minValue)
      && record["max_value"] == Num(band.maxValue)
      && record["has_nodata"] == NodataFlag(band.pixels, src.nodata)
  {
    var m, u := Metadata(file.value, expectedCrs), Statistics(file.value.band.value, file.value.nodata);
    MergedEntries(m, u);
  }

  /** Each entry of a merge of two maps with disjoint keys comes from the
      map that has the key. */
  lemma MergedEntries(m: map<string, Value>, u: map<string, Value>)
    requires m.Keys !! u.Keys
    ensures (m + u).Keys == m.Keys + u.Keys
    ensures forall k :: k in m ==> (m + u)[k] == m[k]
    ensures forall k :: k in u ==> (m + u)[k] == u[k]
  {
  }

  /** Every record holds only well-formed values, and its CRS flag, read
      with the default `False`, is true exactly when the file was read and
      its CRS matches. */
  lemma RecordFacts(file: Result<Raster>, expectedCrs: Option<string>)
    ensures WellFormed(Dict(Record(file, expectedCrs)))
    ensures Get(Record(file, expectedCrs), "crs_match", Bool(false))
              == Bool(Readable(file) && CrsMatch(expectedCrs, file.value.crs))
  {
    if Readable(file) {
      var m, u := Metadata(file.value, expectedCrs), Statistics(file.value.band.value, file.value.nodata);
      MergedEntries(m, u);
      RecordOfReadable(file, expectedCrs);
    }
  }

  /** `validate_raster(file_path, expected_crs)`, where `file` is what
      `rasterio.open(file_path)` gives (or the exception it raises). The
      record is built from the file's metadata first and then updated with
      the band statistics; any exception anywhere yields the soft-failure
      record instead. */
  method ValidateRaster(file: Result<Raster>, expectedCrs: Option<string>)
    returns (record: map<string, Value>)
    ensures record == Record(file, expectedCrs)
    ensures Get(record, "file_exists", Null) == Bool(Readable(file))
    ensures !Readable(file) ==>
              record == map["file_exists" := Bool(false), "error" := Str(FailureMessage(file))]
    ensures Readable(file) ==>
              var src, band := file.value, file.value.band.value;
              && record.Keys == RecordKeys
              && record["crs"] == Str(src.crs)
              && record["crs_match"] == Bool(CrsMatch(expectedCrs, src.crs))
              && record["shape"] == Object(src.shape)
              && record["bounds"] == Object(src.bounds)
              && record["resolution"] == Object(src.resolution)
              && record["nodata"] == (if src.nodata.Some? then Num(src.nodata.value) else Null)
              && record["dtype"] == Str(src.dtype)
              && record["band_count"] == Int(src.bandCount)
              && record["min_value"] == Num(band.minValue)
              && record["max_value"] == Num(band.maxValue)
              && (Truthy(record["has_nodata"]) <==>
                    && src.nodata.Some? && src.nodata.value != Finite(0.0)
                    && exists i :: 0 <= i < |band.pixels| && FloatEq(band.pixels[i], src.nodata.value))
    ensures Get(record, "crs_match", Bool(false))
              == Bool(Readable(file) && CrsMatch(expectedCrs, file.value.crs))
    ensures WellFormed(Dict(record))
  {
    match file {
      case Failure(message) =>
        record := map["file_exists" := Bool(false), "error" := Str(message)];
      case Success(src) =>
        record := Metadata(src, expectedCrs);
        match src.band {
          case Failure(message) =>
            record := map["file_exists" := Bool(false), "error" := Str(message)];
          case Success(band) =>
            var update := Statistics(band, src.nodata);
            record := record + update;
            RecordOfReadable(file, expectedCrs);
        }
    }
    RecordFacts(file, expectedCrs);
  }

  /** `all(r.get("crs_match", False) for r in validation_results.values())`:
      a record without the flag counts as a mismatch. */
  predicate AllCrsMatch(validationResults: map<string, map<string, Value>>) {
    forall k :: k in validationResults ==> Truthy(Get(validationResults[k], "crs_match", Bool(false)))
  }

  /** The keys of the manifest `create_manifest` returns. */
  const ManifestKeys: set<string> := {
    "job_id", "location", "aoi_bbox", "timestamp", "datasets", "validation",
    "processing_parameters"
  }

  /** `create_manifest(job_id, location, bbox, datasets, validation_results)`;
      `utcNow` is `datetime.utcnow().isoformat()`. */
  function CreateManifest(
    jobId: string, location: string, bbox: Value, datasets: map<string, Value>,
    validationResults: map<string, map<string, Value>>, utcNow: string
  ): map<string, Value>
  {
    map[
      "job_id" := Str(jobId),
      "location" := Str(location),
      "aoi_bbox" := bbox,
      "timestamp" := Str(utcNow + "Z"),
      "datasets" := Dict(datasets),
      "validation" := ValidationSection(validationResults),
      "processing_parameters" := Parameters(AllCrsMatch(validationResults))
    ]
  }

  /** The manifest's `validation` entry: every record under its dataset. */
  function ValidationSection(validationResults: map<string, map<string, Value>>): Value {
    Dict(map k | k in validationResults :: Dict(validationResults[k]))
  }

  /** The manifest's `processing_parameters` entry with the given `success`
      flag. */
  function Parameters(success: bool): Value {
    Dict(map[
      "target_crs" := Str(TargetCrs),
      "target_resolution" := Int(30),
      "success" := Bool(success)
    ])
  }

  /** The manifest holds the job, the place, its box, a UTC timestamp marked
      with `Z`, the dataset descriptions and every validation record under
      its dataset's name. */
  lemma CreateManifestShape(
    jobId: string, location: string, bbox: Value, datasets: map<string, Value>,
    validationResults: map<string, map<string, Value>>, utcNow: string)
    ensures var m := CreateManifest(jobId, location, bbox, datasets, validationResults, utcNow);
      && m.Keys == ManifestKeys
      && m["job_id"] == Str(jobId) && m["location"] == Str(location)
      && m["aoi_bbox"] == bbox && m["timestamp"] == Str(utcNow + "Z")
      && m["datasets"] == Dict(datasets)
      && m["validation"].Dict? && m["validation"].fields.Keys == validationResults.Keys
      && (forall k :: k in validationResults ==> m["validation"].fields[k] == Dict(validationResults[k]))
  {
  }

  /** The processing parameters: the target CRS, 30-metre resolution, and
      `success` exactly when every record reports a CRS match, so true for
      no records and false as soon as one record lacks the flag. */
  lemma CreateManifestSuccess(
    jobId: string, location: string, bbox: Value, datasets: map<string, Value>,
    validationResults: map<string, map<string, Value>>, utcNow: string)
    ensures var m := CreateManifest(jobId, location, bbox, datasets, validationResults, utcNow);
      && "processing_parameters" in m
      && m["processing_parameters"].Dict?
      && m["processing_parameters"].fields.Keys == {"target_crs", "target_resolution", "success"}
      && m["processing_parameters"].fields["target_crs"] == Str(TargetCrs)
      && m["processing_parameters"].fields["target_resolution"] == Int(30)
      && m["processing_parameters"].fields["success"] == Bool(AllCrsMatch(validationResults))
      && (validationResults == map[] ==> m["processing_parameters"].fields["success"] == Bool(true))
      && ((exists k :: k in validationResults && "crs_match" !in validationResults[k]) ==>
            m["processing_parameters"].fields["success"] == Bool(false))
  {
  }
}
